=== FILE: README.md ===
# Community portal core, modelled in Dafny

This project models the core of a community portal: its user accounts and its discussion board.

**Server side**
- The user controller: mailing credentials to listed members, registering with a referral code, signing in, changing, recovering and resetting a password, and deleting a user.
- The discussion controller: posting a thread, comment, reply or like, and assembling the threaded feed.

**Client side**
- The discussion modal: adding comments and replies, and the tag and link lists.
- The e-mail verification page: the e-mail pattern and the captcha.
- The two-step forgot-password form.

**Modules**

| module | file | models |
|---|---|---|
| `Wrappers` | `wrappers.dfy` | `Option`, used for SQL NULL and JavaScript `undefined` |
| `JsText` | `js_text.dfy` | the ECMAScript whitespace class and `String.prototype.trim` |
| `CommaList` | `comma_list.dfy` | `split(',')` followed by `filter(piece => piece)` |
| `Accounts` | `accounts.dfy` | the `Community_User` table and the user-controller handlers |
| `AccountLifecycle` | `account_lifecycle.dfy` | the table invariant every handler keeps, and the password-flag lifecycle |
| `DiscussionStore` | `discussion_store.dfy` | the `Community_Discussion` table and `discussionpost` |
| `ThreadAggregator` | `thread_aggregator.dfy` | `getdiscussion` |
| `DiscussionModal` | `discussion_modal.dfy` | the modal's handlers |
| `VerifyEmail` | `verify_email.dfy` | `isValidEmail`, `generateCaptcha`, `handleSubmit` |
| `ForgotPassword` | `forgot_password.dfy` | the forgot-password form |

**Tables**
- Each table is a sequence of rows in storage order, plus the identity counter.
- `isnull(delStatus,0) = 0` is the predicate `Live`.
- A SELECT's `rows[0]` is the first live matching row (`Accounts.Lookup`).
- An UPDATE changes every live matching row (`Accounts.UpdateWhere`).
- `DELETE` removes every row with the id, live or not.

**Outside effects as parameters**
- `bcrypt.compare` is a parameter `matches`.
- The bcrypt hash of a generated or typed password is a parameter `secPass`.
- The successive outputs of the referral-code generator are a parameter `codes`.
- Whether the mail relay succeeded is a parameter `mailSent`.
- `GETDATE()` is a parameter `now`.
- `Math.random()` is replaced by the draws it would yield.
- `fetchData` is replaced by its answer, a `PostResult`.

## Model

| member | source | states |
|---|---|---|
| Accounts.Lookup | server/controllers/user.js:56-60 | Finds a row exactly when some live row has the e-mail or referral code. The row found is the first such row. |
| Accounts.UpdateWhere | server/controllers/user.js:93 | A keyed UPDATE (this one, and those at lines 307, 618, 1025 and 1181) applies its edit to every live row holding the key and leaves every other row as it was; the table keeps its length. |
| Accounts.DeleteId | server/controllers/user.js:760 | A row survives the DELETE exactly when its id differs from the one given, whether or not it is live. |
| Accounts.DeleteIdCounts | server/controllers/user.js:760 | Every row with the id is gone, and every other row is kept exactly as often as it occurred. |
| Accounts.DeleteIdAppend | server/controllers/user.js:760 | The DELETE works row by row: the survivors of two runs of rows are the first run's survivors followed by the second's, so the survivors keep their order. |
| Accounts.DeleteIdSingle | server/controllers/user.js:760 | A single row survives exactly when it carries another id. |
| Accounts.FirstUnusedCode | server/controllers/user.js:73-93 | The retry loop settles on the first generated code that no live user holds. It finds none exactly when every generated code is taken. |
| Accounts.VerifyMember | server/controllers/user.js:57-207 | An unknown e-mail gives "not found" and changes nothing. A flag other than 0 gives "already generated" and changes nothing. A flag-0 member always gets credentials when some generated code is unused: the live rows get the new hash, the first unused code and 10 or 2 credits, and the flag stays 0. Only when no generated code is unused does the request never answer. The answer is a success exactly when the mail went out. |
| Accounts.Register | server/controllers/user.js:277-371 | A taken e-mail is refused. An unknown invite code is a server error. An inviter with no credits is refused and nothing changes. The request goes on to admission exactly when the e-mail is free and the first row holding the invite code has credits, and then the reply is the one `Admit` gives for that row. |
| Accounts.Admit | server/controllers/user.js:303-360 | Every row holding the invite code loses one credit and nothing else changes. The sign-up succeeds exactly when some generated code is unused. Then a row is appended with the next id, flag 1, the inviter as referrer, 10 or 2 credits and the first generated code no live row holds. |
| Accounts.SameCodesAfterCredits | server/controllers/user.js:303-325 | Deducting a credit changes nobody's referral code, so the uniqueness check after the deduction sees the same codes. |
| Accounts.Login | server/controllers/user.js:426-470 | Signs in exactly when the first live row with the e-mail has a password that matches. A sign-in always returns that row's flag and admin mark. Every failure gets the same "wrong credentials" answer. |
| Accounts.ChangePassword | server/controllers/user.js:596-646 | An unknown e-mail gives "not found". Succeeds exactly when the current password matches. A wrong current password gives the "wrong credentials" answer, and no other outcome is possible. Success sets the new hash and flag 1 on the member's live rows. Failure changes nothing. |
| Accounts.PasswordRecovery | server/controllers/user.js:1017-1121 | Answers "not found" exactly when the e-mail is unknown. Otherwise the member's live rows get flag 2, and the answer is a success exactly when the mail went out. |
| Accounts.ResetPassword | server/controllers/user.js:1172-1216 | Succeeds exactly when the member exists, has flag 2 and the signature matches. Success sets the new hash and flag 1. A wrong signature at flag 2 is "link not valid"; every other case is "invalid link". Only success changes the table. |
| Accounts.DeleteUser | server/controllers/user.js:741-776 | A missing or zero id is a bad request. "Not found" happens exactly when no row has the id. When some row has the id, the delete happens and succeeds. The table then holds exactly the rows with other ids, in their old order. Only these three outcomes occur. |
| Accounts.DeleteNothing | server/controllers/user.js:760-777 | The DELETE affects no rows exactly when no row has the id. In that case the table is unchanged. |
| AccountLifecycle.KeySelectsOneRow | server/controllers/user.js:277-290 | In a well-formed table, an e-mail or referral code selects at most one live row. |
| AccountLifecycle.StepKeepsWellFormed | server/controllers/user.js:277-363 | Every handler keeps the invariant: ids are unique and below the counter, and live rows have distinct e-mails and distinct referral codes. |
| AccountLifecycle.RecoverThenReset | server/controllers/user.js:1025-1181 | Recovering and then resetting with the configured signature succeeds. The member ends with the new hash and flag 1. |
| AccountLifecycle.FlagMoves | server/controllers/user.js:1173-1181 | Flag 2 is entered only by recovery. It is left only for flag 1, by a reset or a password change. |
| AccountLifecycle.RegisterThenLogin | server/controllers/user.js:328-466 | A freshly registered member can sign in with the password that was hashed. They see flag 1 and no admin mark. |
| AccountLifecycle.ChangeThenLogin | server/controllers/user.js:596-629 | After a password change, the new password signs in and the flag is 1. |
| AccountLifecycle.CredentialsCanBeResent | server/controllers/user.js:57-93 | Mailing credentials leaves the flag at 0. So any second request for the same e-mail issues credentials again: its answer depends only on whether a fresh code is found and the mail goes out, never "already generated". |
| DiscussionStore.DiscussionPost | server/controllers/discussion.js:11-81 | Posts exactly when the token's e-mail belongs to a live user. The post appends one row with the next id, that user's id and name, and delStatus 0. A missing reference becomes 0 and other missing fields become NULL. A refused post changes nothing. |
| ThreadAggregator.Select | server/controllers/discussion.js:113-126 | A query returns exactly the live rows its WHERE clause accepts, one per accepted position. |
| ThreadAggregator.SelectFromCounts | server/controllers/discussion.js:113-126 | The number of rows a query returns equals the number of table positions it accepts. |
| ThreadAggregator.SelectMultiplicity | server/controllers/discussion.js:113-126 | A query returns each row value exactly as many times as table positions holding that value are accepted. |
| ThreadAggregator.InsertByDate | server/controllers/discussion.js:113 | Inserting into a newest-first list keeps it newest-first and adds exactly that row. |
| ThreadAggregator.SortNewestFirst | server/controllers/discussion.js:113 | `ORDER BY AddOnDt DESC` returns a permutation of its input, newest first. |
| ThreadAggregator.LikeCount | server/controllers/discussion.js:141-143 | A node's like count is the number of live rows with positive likes that point at it. |
| ThreadAggregator.UserLike | server/controllers/discussion.js:131-136 | The like flag is 0 or 1. It is 1 exactly when one of those like rows belongs to the viewer. |
| ThreadAggregator.RepliesTo | server/controllers/discussion.js:145-165 | A comment's reply objects are exactly the live comments on that comment, one per accepted row. |
| ThreadAggregator.ReplyNodeOf | server/controllers/discussion.js:156-165 | A reply object copies the reply row's id, author, text and name. Its like count is the number of live like rows on that reply. Its flag is 0 or 1, and 1 exactly when one of them is the viewer's. |
| ThreadAggregator.CommentNodeOf | server/controllers/discussion.js:140-170 | A comment object copies the comment row's id, author, text and name. Its like count is the number of live like rows on that comment. Its flag is 0 or 1, and 1 exactly when one of them is the viewer's. It carries the reply list it is handed. |
| ThreadAggregator.SharedReplies | server/controllers/discussion.js:139-170 | The thread-wide accumulator holds exactly the live replies to the thread's comments, from all of them together. Its length is the sum over the comments of each one's reply rows. |
| ThreadAggregator.SharedRepliesConcat | server/controllers/discussion.js:139-170 | The accumulator is filled comment after comment: the list for two runs of comments is the first run's list followed by the second's. |
| ThreadAggregator.SharedRepliesSingle | server/controllers/discussion.js:145-165 | One comment contributes exactly its own reply objects, in table order. |
| ThreadAggregator.SharedRepliesAt | server/controllers/discussion.js:139-170 | Comment j's replies sit between the replies of the comments before it and those of the comments after it. |
| ThreadAggregator.ThreadContents | server/controllers/discussion.js:119-178 | A thread object's like count and flag are those of the root. Its comments are exactly the live comments on the root. Every comment carries the same reply list. |
| ThreadAggregator.ThreadCommentObjects | server/controllers/discussion.js:139-170 | A thread has one comment object per live comment row on the root, in table order. Each is that row's comment object, with the row's own like count and like flag. |
| ThreadAggregator.ThreadOf | server/controllers/discussion.js:119-178 | A thread object copies the root's columns. Its like count is the number of live like rows on the root. Its flag is 1 exactly when one of them is the viewer's. It has one comment object per live comment on the root. |
| ThreadAggregator.ThreadReplies | server/controllers/discussion.js:139-170 | Each comment's reply list holds every live reply to any comment of the thread, and nothing else. Its length is the sum of the reply rows of all the thread's comments. In it, the replies of each comment follow those of the comments before it in table order and precede those after it. |
| ThreadAggregator.ThreadsFor | server/controllers/discussion.js:113-178 | A feed has one thread per public live root row, dated newest first. |
| ThreadAggregator.ThreadsAreRoots | server/controllers/discussion.js:113-119 | Every thread in the feed renders some public live root row. |
| ThreadAggregator.RootsAreThreads | server/controllers/discussion.js:113-119 | Every public live root row appears in the feed. |
| ThreadAggregator.GetDiscussion | server/controllers/discussion.js:83-205 | The answer is "user not found" exactly when no live user has the viewer's e-mail. Otherwise it is the viewer's newest-first feed, with likes judged against that user's id. |
| ThreadAggregator.PositionsAppend | server/controllers/discussion.js:54-55 | An appended row adds its own position to a query's result exactly when the query accepts it. |
| ThreadAggregator.PostedLikeCounts | server/controllers/discussion.js:54-55 | Posting a positive like on a target raises that target's like count by exactly one. Any other post leaves every like count unchanged. |
| ThreadAggregator.PostedThreadIsShown | server/controllers/discussion.js:113-119 | A public top-level post appears in every known viewer's feed. |
| ThreadAggregator.PostedCommentIsListed | server/controllers/discussion.js:124-126 | A comment posted on a thread is listed among that thread's comments. |
| ThreadAggregator.SharedReplyMisattributed | server/controllers/discussion.js:139-170 | The source as written: in a concrete table, the second comment carries a reply addressed to the first. |
| ThreadAggregator.ThreadOfPerComment | server/controllers/discussion.js:139-170 | The intended behaviour: each comment carries exactly the live replies addressed to it. |
| JsText.TrimStartIndex | client/src/component/DiscussionModal.jsx:96 | Everything before the index is whitespace and the character at the index, if any, is not. |
| JsText.TrimEndIndex | client/src/component/DiscussionModal.jsx:96 | Everything from the index on is whitespace and the character just before it, if any, is not. |
| JsText.Trim | client/src/component/DiscussionModal.jsx:96 | The result is a slice of the input with only whitespace outside it, and no whitespace at either end. |
| JsText.TrimEmptyIffBlank | client/src/component/DiscussionModal.jsx:96 | A draft trims to "" exactly when every character is whitespace. |
| CommaList.Split | client/src/component/DiscussionModal.jsx:306 | `split(',')` yields at least one piece, and no piece contains a comma. |
| CommaList.JoinSplit | client/src/component/DiscussionModal.jsx:306 | Joining the pieces with commas gives back the text. |
| CommaList.SplitCount | client/src/component/DiscussionModal.jsx:306 | There is one more piece than there are commas. |
| CommaList.SplitComma | client/src/component/DiscussionModal.jsx:306 | A comma cuts the text in two: the pieces of `a,b` are those of `a` followed by those of `b`. |
| CommaList.DropEmpty | client/src/component/DiscussionModal.jsx:306 | The filter keeps exactly the non-empty pieces: each kept piece is non-empty and from the input, every non-empty piece is kept, and the count drops by the number of empty pieces. |
| CommaList.DropEmptyAppend | client/src/component/DiscussionModal.jsx:306 | The filter works piece by piece: on two runs of pieces it gives the first run's kept pieces followed by the second's, so the order is kept. |
| CommaList.DropEmptySingle | client/src/component/DiscussionModal.jsx:306 | One piece is kept exactly when it is non-empty. |
| CommaList.DropEmptyConcat | client/src/component/DiscussionModal.jsx:306 | Filtering out empty pieces does not change the concatenated text. |
| CommaList.SplitThenDropConcat | client/src/component/DiscussionModal.jsx:306 | The filtered pieces glued together are the text with its commas removed. |
| CommaList.ListItems | client/src/component/DiscussionModal.jsx:306 | A non-empty column lists exactly the non-empty pieces of its split, in order. A rendered item is never empty and never holds a comma. Together the items hold every other character of the column, in order. |
| CommaList.ListItemsComma | client/src/component/DiscussionModal.jsx:306 | The items of `a,b` are the items of `a` followed by the items of `b`; an empty side contributes nothing. |
| CommaList.LeadingCommaDropsOut | client/src/component/DiscussionModal.jsx:306 | A leading comma leaves no empty item. |
| CommaList.DoubledCommaDropsOut | client/src/component/DiscussionModal.jsx:306 | A doubled comma leaves no empty item: `a,,b` lists `a` and `b`. |
| CommaList.SingleItem | client/src/component/DiscussionModal.jsx:306 | A non-empty text without commas renders as that one item. |
| CommaList.ListItemsRejoin | client/src/component/DiscussionModal.jsx:306 | When there is no leading, trailing or doubled comma, joining the items with commas rebuilds the column. |
| DiscussionModal.ShownList | client/src/component/DiscussionModal.jsx:302-306 | The heading is hidden exactly when the column is null or empty. Otherwise the list is the column's items, the non-empty comma-free pieces in order, possibly none. |
| DiscussionModal.Tags | client/src/component/DiscussionModal.jsx:302-306 | The tag list is hidden exactly when `Tag` is null or empty. Otherwise it is the items of `Tag`: each non-empty piece, in order. |
| DiscussionModal.Links | client/src/component/DiscussionModal.jsx:319-323 | The link list is hidden exactly when `ResourceUrl` is null or empty. Otherwise it is the items of `ResourceUrl`: each non-empty piece, in order. |
| DiscussionModal.Opened | client/src/component/DiscussionModal.jsx:10-19 | The modal opens with no demo discussions, no reply texts and no loading spinner. |
| DiscussionModal.HandleAddComment | client/src/component/DiscussionModal.jsx:21-109 | A request is sent exactly when there is a token; it carries the discussion id and the draft. Only an accepted post prepends the comment, and nothing else of the discussion changes: the new entry has the signed-in user's id and name with the draft, no likes and no replies. It has no id, because the server's answer carries none, and no like flag, because the object spells that key `UserLike`. Independently, a non-blank draft is appended locally and cleared, and a blank one is left alone. |
| DiscussionModal.HandleReplyTextChange | client/src/component/DiscussionModal.jsx:111-116 | The reply box at the index shows the new text. Every other box and all other state stay unchanged. |
| DiscussionModal.AppendReplyAt | client/src/component/DiscussionModal.jsx:158-166 | Only the comment at the index gains the reply, at the end of its replies. |
| DiscussionModal.AddReply | client/src/component/DiscussionModal.jsx:156-174 | Only discussions whose id equals the comment's id are changed. |
| DiscussionModal.HandleAddReply | client/src/component/DiscussionModal.jsx:117-195 | Without a token nothing happens. A refused or failed post changes only the loading flag. An accepted post adds the reply to `demoDiscussions` and clears that reply box. The displayed discussion is untouched in every case. |
| DiscussionModal.RepliesNeverShown | client/src/component/DiscussionModal.jsx:156-176 | The source as written: after any sequence of reply posts, `demoDiscussions` is still empty and the displayed discussion is unchanged. |
| DiscussionModal.HandleAddReplyShown | client/src/component/DiscussionModal.jsx:117-195 | The intended behaviour: an accepted reply is appended to the displayed comment at the index. It sends the same request as the handler as written. |
| VerifyEmail.PatternAtPositions | client/src/component/VerifyEmail.jsx:50-53 | The pattern's language, read as three segments, equals its reading by positions. |
| VerifyEmail.IsValidEmail | client/src/component/VerifyEmail.jsx:50-53 | Holds exactly when the address is in the language of `^[^\s@]+@[^\s@]+\.[^\s@]+$`. |
| VerifyEmail.FirstAt | client/src/component/VerifyEmail.jsx:51 | Finds the first '@', or reports that there is none. |
| VerifyEmail.Shuffle | client/src/component/VerifyEmail.jsx:28 | The shuffle keeps the length. |
| VerifyEmail.ShuffleIsPermutation | client/src/component/VerifyEmail.jsx:28 | The random-comparator sort only rearranges characters. |
| VerifyEmail.GenerateCaptcha | client/src/component/VerifyEmail.jsx:12-30 | The captcha has the requested length, or 3 when less is asked. It holds exactly the drawn characters. |
| VerifyEmail.CaptchaClasses | client/src/component/VerifyEmail.jsx:19-25 | Every captcha has a lower-case letter, an upper-case letter and a digit, and nothing outside those classes. |
| VerifyEmail.HandleSubmit | client/src/component/VerifyEmail.jsx:54-91 | A captcha mismatch (case-sensitive) is reported first, whatever the e-mail. An invalid e-mail is reported only after a matching captcha. Otherwise the `user/verify` request is built. |
| ForgotPassword.HandleVerifyEmail | client/src/component/ForgotPassword.jsx:12-18 | Step two becomes visible and nothing else changes. |
| ForgotPassword.HandleSubmit | client/src/component/ForgotPassword.jsx:20-35 | Different passwords only raise the mismatch flag. Equal passwords reset every field to its initial value except the visibility toggle. |
| ForgotPassword.EditConfirm | client/src/component/ForgotPassword.jsx:85-88 | The confirmation box stores the text. The match flag compares it with the current new password. |
| ForgotPassword.Dispatch | client/src/component/ForgotPassword.jsx:44-106 | Only the visible step reacts: on step one the password inputs and the toggle change nothing, and on step two the e-mail input and its button change nothing. On step two the confirm box runs `EditConfirm` and the toggle flips only the visibility. An allowed e-mail submission runs `HandleVerifyEmail`; a blocked one, or a blocked reset, changes nothing. Typing a new password does not touch the match flag. |
| ForgotPassword.ReachableStepOneClean | client/src/component/ForgotPassword.jsx:5-35 | On every reachable page, step one has empty password boxes and no warning. So the warning implies step two. |
| ForgotPassword.StaleMismatch | client/src/component/ForgotPassword.jsx:68-88 | The warning can be stale: after the first box is corrected, both boxes agree but the warning stays on. |

## Left out

**Outside effects and infrastructure**
- Mail delivery, bcrypt hashing and comparison, JWT signing and verification, and the encryption helpers are left out. They are foreign code; their outcomes are parameters.
- Logging, HTTP status codes and response messages are left out. Each handler's answer is an `Outcome` constructor instead.
- Database connection failures and the catch-all 500 answers are left out. Only the runtime error the source triggers itself (an unknown invite code) is modelled.
- Audit columns (`AuthAdd` and `AuthLstEdit` of users, `editOnDt`, the users' `AddOnDt`) are left out. No handler reads them back.
- Concurrency between requests is left out. Each request runs atomically against one table state.

**Operations not modelled**
- The `getuser` and `sendInvite` handlers and `getAllUser` with method GET are left out. They read without changing anything, or only send mail.
- The routes, `Navbar.jsx` and `vite.config.js` are not part of this model.
- Rendering, toasts, timestamps and the captcha refresh button are left out.
- `VerifyEmail.HandleSubmit`: the `user/verify` request is formed but, as in the source, never sent.

**Weaker contracts and modelling limits**
- ThreadAggregator.SortNewestFirst: rows with equal dates keep their table order, a choice the model makes. SQL leaves such ties unordered.
- ThreadAggregator.Select: like and comment queries return rows in table order. Their SQL has no ORDER BY.
- DiscussionStore.DiscussionPost: the INSERT passes twelve values for eleven placeholders. The model assumes the driver ignores the extra value.
- VerifyEmail.Shuffle: the random-comparator sort is modelled as the exchanges it happens to make. Which permutation a real engine produces is not modelled.
- Accounts.VerifyMember: when the code generator never produces an unused code, the source loops forever. The model answers `NeverAnswers` instead.
- Accounts.Register: when the code generator never produces an unused code, the model also answers `NeverAnswers`, after the credit has been deducted.
- ThreadAggregator.Selects: the root filter compares `Visibility` with "public" by exact string equality. Under SQL Server's default collation `Visibility = 'public'` also accepts "Public" or "public ". `discussionpost` stores the visibility from the request unchecked, so such rows exist in practice. ThreadAggregator.ThreadsFor, ThreadAggregator.RootsAreThreads and ThreadAggregator.PostedThreadIsShown inherit this.
- Accounts.DeleteUser: the handler decides between success and "not found" on `result.affectedRows > 0`. The query helper is not part of this model, and for a SELECT it returns a bare row array. The model assumes `affectedRows` is the number of rows the DELETE removed. If the helper returns a bare array for a DELETE as well, `affectedRows` is undefined and every delete, successful or not, answers "not found".
- Accounts.Lookup: e-mails and referral codes are compared by exact string equality. SQL Server's default collation compares them case-insensitively and ignores trailing spaces, so the database can match rows the model does not. Accounts.Register, Accounts.UpdateWhere and every handler built on them inherit this.

## Findings

| source | as written | input that shows it | evidently intended | confidence | as-written member | corrected member |
|---|---|---|---|---|---|---|
| server/controllers/discussion.js:139 | The reply accumulator `commentsArrayUpdatedSecond` is created once per thread. Every comment object holds that one array, so each comment shows the replies of all comments of the thread. | A thread 1 with comments 2 and 3, and a reply 4 to comment 2: comment 3 is served reply 4. | Create the accumulator inside the per-comment loop, so a comment shows only its own replies. | medium, not executed | ThreadAggregator.SharedReplyMisattributed | ThreadAggregator.ThreadOfPerComment |
| client/src/component/DiscussionModal.jsx:156 | An accepted reply is written into `demoDiscussions`, which starts empty and is never filled or rendered. The match is also on the comment's id, not the discussion's. | Open the modal, type a reply and post it successfully: the displayed comments do not change. | Append the reply to the displayed comment at `commentIndex`. | medium, not executed | DiscussionModal.RepliesNeverShown | DiscussionModal.HandleAddReplyShown |

=== FILE: account_lifecycle.dfy ===
/**
 * Properties that relate several account handlers: the table invariant every
 * handler keeps, and the password-flag lifecycle
 * (0 credentials pending -> 1 password set <-> 2 reset pending).
 */
module AccountLifecycle {
  import opened Wrappers
  import opened Accounts

  /** One request to the user controller. */
  datatype Request =
    | SendCredentials(email: string, secPass: string, codes: seq<string>, mailSent: bool)
    | SignUp(form: RegistrationForm, secPass: string, codes: seq<string>)
    | SignIn(email: string, password: string)
    | ChangePass(email: string, current: string, secPass: string)
    | Recover(email: string, mailSent: bool)
    | Reset(email: string, signature: string, secPass: string)
    | Remove(userId: Option<int>)

  /** Dispatch a request; `matches` is `bcrypt.compare`, `configured` the server's signature. */
  function Step(t: UserTable, req: Request, matches: (string, string) -> bool, configured: string): Reply {
    match req
    case SendCredentials(e, p, codes, sent) => VerifyMember(t, e, p, codes, sent)
    case SignUp(form, p, codes) => Register(t, form, p, codes)
    case SignIn(e, pw) => Reply(t, Login(t, e, pw, matches))
    case ChangePass(e, cur, p) => ChangePassword(t, e, cur, p, matches)
    case Recover(e, sent) => PasswordRecovery(t, e, sent)
    case Reset(e, sig, p) => ResetPassword(t, e, sig, configured, p)
    case Remove(id) => DeleteUser(t, id)
  }

  ghost predicate IdsUnique(rows: seq<User>) {
    forall i, j :: 0 <= i < |rows| && 0 <= j < |rows| && i != j ==> rows[i].userId != rows[j].userId
  }

  /** The table invariant: ids are unique and below the identity counter, and no two live rows
      share an e-mail address or a referral code. */
  ghost predicate WellFormed(t: UserTable) {
    && IdsUnique(t.rows)
    && (forall u :: u in t.rows ==> u.userId < t.nextId)
    && (forall u, v :: u in t.rows && v in t.rows && Live(u) && Live(v) && u.userId != v.userId
                       ==> u.email != v.email)
    && (forall u, v :: u in t.rows && v in t.rows && Live(u) && Live(v) && u.userId != v.userId && u.referralCode.Some?
                       ==> u.referralCode != v.referralCode)
  }

  /** In a well-formed table a key selects at most one row, so every UPDATE of a handler changes
      exactly the row its lookup found and nothing else. */
  lemma KeySelectsOneRow(t: UserTable, key: Key, i: nat)
    requires WellFormed(t)
    requires Lookup(t.rows, key) == Some(i)
    ensures forall j :: 0 <= j < |t.rows| && j != i ==> !HasKey(t.rows[j], key)
  {
    forall j | 0 <= j < |t.rows| && j != i
      ensures !HasKey(t.rows[j], key)
    {
      assert t.rows[i] in t.rows && t.rows[j] in t.rows;
      assert t.rows[i].userId != t.rows[j].userId;
    }
  }

  /** An UPDATE that keeps ids, e-mails, codes and delete marks keeps the invariant. */
  lemma InvisibleEditKeeps(t: UserTable, t': UserTable)
    requires WellFormed(t)
    requires t'.nextId == t.nextId && |t'.rows| == |t.rows|
    requires forall i :: 0 <= i < |t.rows| ==>
               && t'.rows[i].userId == t.rows[i].userId && t'.rows[i].email == t.rows[i].email
               && t'.rows[i].referralCode == t.rows[i].referralCode && t'.rows[i].delStatus == t.rows[i].delStatus
    ensures WellFormed(t')
  {
    forall u, v | u in t'.rows && v in t'.rows && Live(u) && Live(v) && u.userId != v.userId
      ensures u.email != v.email
      ensures u.referralCode.Some? ==> u.referralCode != v.referralCode
    {
      var i :| 0 <= i < |t'.rows| && t'.rows[i] == u;
      var j :| 0 <= j < |t'.rows| && t'.rows[j] == v;
      assert t.rows[i] in t.rows && t.rows[j] in t.rows;
    }
    forall u | u in t'.rows ensures u.userId < t'.nextId {
      var i :| 0 <= i < |t'.rows| && t'.rows[i] == u;
      assert t.rows[i] in t.rows;
    }
  }

  lemma {:induction false} DeleteKeepsIdsUnique(rows: seq<User>, id: int)
    requires IdsUnique(rows)
    ensures IdsUnique(DeleteId(rows, id))
  {
    if rows != [] {
      var tail := rows[1..];
      assert IdsUnique(tail) by {
        forall i, j | 0 <= i < |tail| && 0 <= j < |tail| && i != j ensures tail[i].userId != tail[j].userId {
          assert rows[i + 1].userId != rows[j + 1].userId;
        }
      }
      DeleteKeepsIdsUnique(tail, id);
      var d := DeleteId(tail, id);
      if rows[0].userId != id {
        var r := [rows[0]] + d;
        forall k | 0 <= k < |d| ensures d[k].userId != rows[0].userId {
          assert d[k] in tail;
          var m :| 0 <= m < |tail| && tail[m] == d[k];
          assert rows[m + 1] == d[k];
        }
        forall i, j | 0 <= i < |r| && 0 <= j < |r| && i != j ensures r[i].userId != r[j].userId {
          if i > 0 && j > 0 {
            assert r[i] == d[i - 1] && r[j] == d[j - 1];
          }
        }
      }
    }
  }

  lemma IssueCredentialsKeeps(t: UserTable, e: string, i: nat, p: string, code: string, n: int)
    requires WellFormed(t)
    requires Lookup(t.rows, Email(e)) == Some(i)
    requires !Holds(t.rows, ReferralCode(code))
    ensures WellFormed(UserTable(UpdateWhere(t.rows, Email(e), IssueCredentials(p, code, n)), t.nextId))
  {
    var rows := UpdateWhere(t.rows, Email(e), IssueCredentials(p, code, n));
    KeySelectsOneRow(t, Email(e), i);
    forall j | 0 <= j < |t.rows| && j != i ensures rows[j] == t.rows[j] {}
    FreshCodeEditKeeps(t, UserTable(rows, t.nextId), i, code);
  }

  /** An UPDATE that gives one row a code no row holds, and keeps ids, e-mails and delete marks,
      keeps the invariant. */
  lemma FreshCodeEditKeeps(t: UserTable, t': UserTable, i: nat, code: string)
    requires WellFormed(t) && !Holds(t.rows, ReferralCode(code))
    requires t'.nextId == t.nextId && |t'.rows| == |t.rows| && i < |t.rows|
    requires forall j :: 0 <= j < |t.rows| && j != i ==> t'.rows[j] == t.rows[j]
    requires t'.rows[i].userId == t.rows[i].userId && t'.rows[i].email == t.rows[i].email
    requires t'.rows[i].delStatus == t.rows[i].delStatus && t'.rows[i].referralCode == Some(code)
    ensures WellFormed(t')
  {
    var rows := t'.rows;
    forall u, v | u in rows && v in rows && Live(u) && Live(v) && u.userId != v.userId
      ensures u.email != v.email
      ensures u.referralCode.Some? ==> u.referralCode != v.referralCode
    {
      var a :| 0 <= a < |rows| && rows[a] == u;
      var b :| 0 <= b < |rows| && rows[b] == v;
      assert t.rows[a] in t.rows && t.rows[b] in t.rows;
      if a == i {
        assert !HasKey(t.rows[b], ReferralCode(code));
      } else if b == i {
        assert !HasKey(t.rows[a], ReferralCode(code));
      }
    }
    forall u | u in rows ensures u.userId < t.nextId {
      var a :| 0 <= a < |rows| && rows[a] == u;
      assert t.rows[a] in t.rows;
    }
  }

  lemma SendCredentialsKeeps(t: UserTable, e: string, p: string, codes: seq<string>, sent: bool)
    requires WellFormed(t)
    ensures WellFormed(VerifyMember(t, e, p, codes, sent).table)
  {
    var r := VerifyMember(t, e, p, codes, sent);
    var found := Lookup(t.rows, Email(e));
    var unused := FirstUnusedCode(t.rows, codes);
    if found.Some? && t.rows[found.value].flagPasswordChange == CredentialsPending && unused.Some? {
      var n := CreditsFor(t.rows[found.value].category);
      assert r.table == UserTable(UpdateWhere(t.rows, Email(e), IssueCredentials(p, unused.value, n)), t.nextId);
      IssueCredentialsKeeps(t, e, found.value, p, unused.value, n);
    } else {
      assert r.table == t;
    }
  }

  /** Appending a member whose id, e-mail and code are all unused keeps the invariant. */
  lemma InsertKeeps(t: UserTable, nu: User)
    requires WellFormed(t)
    requires nu.userId == t.nextId
    requires !Holds(t.rows, Email(nu.email))
    requires nu.referralCode.Some? && !Holds(t.rows, ReferralCode(nu.referralCode.value))
    ensures WellFormed(UserTable(t.rows + [nu], t.nextId + 1))
  {
    var rows := t.rows + [nu];
    forall u | u in t.rows
      ensures u.userId < nu.userId
      ensures Live(u) ==> u.email != nu.email && u.referralCode != nu.referralCode
    {
      var a :| 0 <= a < |t.rows| && t.rows[a] == u;
      assert !HasKey(t.rows[a], Email(nu.email));
      assert !HasKey(t.rows[a], ReferralCode(nu.referralCode.value));
    }
    forall i, j | 0 <= i < |rows| && 0 <= j < |rows| && i != j
      ensures rows[i].userId != rows[j].userId
    {
      if i < |t.rows| { assert rows[i] in t.rows; }
      if j < |t.rows| { assert rows[j] in t.rows; }
    }
  }

  /** An UPDATE that does not set a referral code keeps the invariant. */
  lemma PlainEditKeeps(t: UserTable, key: Key, e: Edit)
    requires WellFormed(t)
    requires !e.IssueCredentials?
    ensures WellFormed(UserTable(UpdateWhere(t.rows, key, e), t.nextId))
  {
    InvisibleEditKeeps(t, UserTable(UpdateWhere(t.rows, key, e), t.nextId));
  }

  /** ... and keeps which e-mails and codes are held by live rows. */
  lemma PlainEditKeepsHolders(rows: seq<User>, key: Key, e: Edit, k: Key)
    requires !e.IssueCredentials?
    ensures Holds(UpdateWhere(rows, key, e), k) <==> Holds(rows, k)
  {
    var rows' := UpdateWhere(rows, key, e);
    if Holds(rows', k) {
      var a :| 0 <= a < |rows'| && HasKey(rows'[a], k);
      assert HasKey(rows[a], k);
    }
    if Holds(rows, k) {
      var a :| 0 <= a < |rows| && HasKey(rows[a], k);
      assert HasKey(rows'[a], k);
    }
  }

  /** The table a registration that passed its checks produces, in terms of the deducted table. */
  lemma SignUpTable(t: UserTable, form: RegistrationForm, p: string, codes: seq<string>, i: nat)
    requires Lookup(t.rows, Email(form.email)).None?
    requires Lookup(t.rows, ReferralCode(form.inviteCode)) == Some(i) && t.rows[i].referralCount > 0
    ensures var deducted := UpdateWhere(t.rows, ReferralCode(form.inviteCode), SetCredits(t.rows[i].referralCount - 1));
            var unused := FirstUnusedCode(deducted, codes);
            Register(t, form, p, codes).table
            == if unused.Some?
               then UserTable(deducted + [NewMember(t.nextId, form, p, unused.value, t.rows[i].userId)], t.nextId + 1)
               else UserTable(deducted, t.nextId)
  {
  }

  lemma SignUpKeeps(t: UserTable, form: RegistrationForm, p: string, codes: seq<string>)
    requires WellFormed(t)
    ensures WellFormed(Register(t, form, p, codes).table)
  {
    var found := Lookup(t.rows, Email(form.email));
    var inviter := Lookup(t.rows, ReferralCode(form.inviteCode));
    if found.None? && inviter.Some? && t.rows[inviter.value].referralCount > 0 {
      var i := inviter.value;
      var edit := SetCredits(t.rows[i].referralCount - 1);
      var deducted := UserTable(UpdateWhere(t.rows, ReferralCode(form.inviteCode), edit), t.nextId);
      PlainEditKeeps(t, ReferralCode(form.inviteCode), edit);
      PlainEditKeepsHolders(t.rows, ReferralCode(form.inviteCode), edit, Email(form.email));
      SignUpTable(t, form, p, codes, i);
      var unused := FirstUnusedCode(deducted.rows, codes);
      if unused.Some? {
        InsertKeeps(deducted, NewMember(t.nextId, form, p, unused.value, t.rows[i].userId));
      }
    } else {
      assert Register(t, form, p, codes).table == t;
    }
  }

  lemma ChangePassKeeps(t: UserTable, e: string, cur: string, p: string, matches: (string, string) -> bool)
    requires WellFormed(t)
    ensures WellFormed(ChangePassword(t, e, cur, p, matches).table)
  {
    var r := ChangePassword(t, e, cur, p, matches);
    if r.outcome == Done { InvisibleEditKeeps(t, r.table); }
  }

  lemma RecoverKeeps(t: UserTable, e: string, sent: bool)
    requires WellFormed(t)
    ensures WellFormed(PasswordRecovery(t, e, sent).table)
  {
    var r := PasswordRecovery(t, e, sent);
    if Holds(t.rows, Email(e)) {
      forall i | 0 <= i < |t.rows|
        ensures r.table.rows[i] == if HasKey(t.rows[i], Email(e)) then t.rows[i].(flagPasswordChange := 2) else t.rows[i]
      {}
      InvisibleEditKeeps(t, r.table);
    }
  }

  lemma ResetKeeps(t: UserTable, e: string, sig: string, configured: string, p: string)
    requires WellFormed(t)
    ensures WellFormed(ResetPassword(t, e, sig, configured, p).table)
  {
    var r := ResetPassword(t, e, sig, configured, p);
    if r.outcome == Done { InvisibleEditKeeps(t, r.table); }
  }

  lemma RemoveKeeps(t: UserTable, id: Option<int>)
    requires WellFormed(t)
    ensures WellFormed(DeleteUser(t, id).table)
  {
    var r := DeleteUser(t, id);
    if r.outcome == Done { DeleteKeepsIdsUnique(t.rows, id.value); }
  }

  /** Every request keeps the table invariant. */
  lemma StepKeepsWellFormed(t: UserTable, req: Request, matches: (string, string) -> bool, configured: string)
    requires WellFormed(t)
    ensures WellFormed(Step(t, req, matches, configured).table)
  {
    match req
    case SendCredentials(e, p, codes, sent) => SendCredentialsKeeps(t, e, p, codes, sent);
    case SignUp(form, p, codes) => SignUpKeeps(t, form, p, codes);
    case SignIn(e, pw) =>
    case ChangePass(e, cur, p) => ChangePassKeeps(t, e, cur, p, matches);
    case Recover(e, sent) => RecoverKeeps(t, e, sent);
    case Reset(e, sig, p) => ResetKeeps(t, e, sig, configured, p);
    case Remove(id) => RemoveKeeps(t, id);
  }

  /** A recovery request followed by a reset with the configured signature succeeds and leaves the
      member with the new password and flag 1. */
  lemma RecoverThenReset(t: UserTable, email: string, mailSent: bool, configured: string, secPass: string)
    requires WellFormed(t)
    requires Holds(t.rows, Email(email))
    ensures var t1 := PasswordRecovery(t, email, mailSent).table;
            var r := ResetPassword(t1, email, configured, configured, secPass);
            && r.outcome == Done
            && var u := r.table.rows[Lookup(t.rows, Email(email)).value];
            && u.password == secPass && u.flagPasswordChange == PasswordSet
  {
    var i := Lookup(t.rows, Email(email)).value;
    var t1 := PasswordRecovery(t, email, mailSent).table;
    KeySelectsOneRow(t, Email(email), i);
    assert HasKey(t1.rows[i], Email(email));
    assert forall j :: 0 <= j < i ==> !HasKey(t1.rows[j], Email(email));
    assert Lookup(t1.rows, Email(email)) == Some(i);
  }

  /** Flag 2 is reached only by a recovery request, and flag 2 is left only for flag 1 by a
      reset or a password change; sending credentials never moves the flag. */
  lemma FlagMoves(t: UserTable, req: Request, matches: (string, string) -> bool, configured: string, i: nat)
    requires WellFormed(t)
    requires !req.Remove? && i < |t.rows|
    ensures var r := Step(t, req, matches, configured);
            && i < |r.table.rows|
            && var before := t.rows[i].flagPasswordChange;
            && var after := r.table.rows[i].flagPasswordChange;
            && (after != before ==> (req.Recover? && after == ResetPending)
                                    || ((req.Reset? || req.ChangePass?) && after == PasswordSet))
            && (req.Reset? && after != before ==> before == ResetPending)
  {
    match req
    case Reset(e, sig, p) => ResetFlag(t, e, sig, configured, p, i);
    case SignUp(form, p, codes) => SignUpFlag(t, form, p, codes, i);
    case SendCredentials(e, p, codes, sent) => SendFlag(t, e, p, codes, sent, i);
    case SignIn(e, pw) =>
    case ChangePass(e, cur, p) => ChangePassFlag(t, e, cur, p, matches, i);
    case Recover(e, sent) => RecoverFlag(t, e, sent, i);
  }

  lemma ResetFlag(t: UserTable, e: string, sig: string, configured: string, p: string, i: nat)
    requires WellFormed(t) && i < |t.rows|
    ensures var r := ResetPassword(t, e, sig, configured, p);
            && i < |r.table.rows|
            && (r.table.rows[i].flagPasswordChange == t.rows[i].flagPasswordChange
                || (t.rows[i].flagPasswordChange == ResetPending && r.table.rows[i].flagPasswordChange == PasswordSet))
  {
    if ResetPassword(t, e, sig, configured, p).outcome == Done {
      KeySelectsOneRow(t, Email(e), Lookup(t.rows, Email(e)).value);
    }
  }

  lemma SignUpFlag(t: UserTable, form: RegistrationForm, p: string, codes: seq<string>, i: nat)
    requires i < |t.rows|
    ensures var r := Register(t, form, p, codes);
            i < |r.table.rows| && r.table.rows[i].flagPasswordChange == t.rows[i].flagPasswordChange
  {}

  lemma SendFlag(t: UserTable, e: string, p: string, codes: seq<string>, sent: bool, i: nat)
    requires i < |t.rows|
    ensures var r := VerifyMember(t, e, p, codes, sent);
            i < |r.table.rows| && r.table.rows[i].flagPasswordChange == t.rows[i].flagPasswordChange
  {}

  lemma ChangePassFlag(t: UserTable, e: string, cur: string, p: string, matches: (string, string) -> bool, i: nat)
    requires i < |t.rows|
    ensures var r := ChangePassword(t, e, cur, p, matches);
            && i < |r.table.rows|
            && r.table.rows[i].flagPasswordChange in {t.rows[i].flagPasswordChange, PasswordSet}
  {}

  lemma RecoverFlag(t: UserTable, e: string, sent: bool, i: nat)
    requires i < |t.rows|
    ensures var r := PasswordRecovery(t, e, sent);
            && i < |r.table.rows|
            && r.table.rows[i].flagPasswordChange in {t.rows[i].flagPasswordChange, ResetPending}
  {}

  /** A freshly registered member can sign in with the password whose hash was stored, and sees
      flag 1 (password already set). */
  lemma RegisterThenLogin(t: UserTable, form: RegistrationForm, password: string, secPass: string,
                          codes: seq<string>, matches: (string, string) -> bool)
    requires Register(t, form, secPass, codes).outcome == Done
    requires matches(password, secPass)
    ensures Login(Register(t, form, secPass, codes).table, form.email, password, matches) == LoggedIn(PasswordSet, None)
  {
    var t' := Register(t, form, secPass, codes).table;
    var n := |t.rows|;
    forall j | 0 <= j < n ensures !HasKey(t'.rows[j], Email(form.email)) {
      assert !HasKey(t.rows[j], Email(form.email));
    }
    assert HasKey(t'.rows[n], Email(form.email));
    assert Lookup(t'.rows, Email(form.email)) == Some(n);
  }

  /** After a password change the member signs in with the new password and sees flag 1. */
  lemma ChangeThenLogin(t: UserTable, email: string, current: string, newPassword: string, secPass: string,
                        matches: (string, string) -> bool)
    requires WellFormed(t)
    requires ChangePassword(t, email, current, secPass, matches).outcome == Done
    requires matches(newPassword, secPass)
    ensures var i := Lookup(t.rows, Email(email)).value;
            Login(ChangePassword(t, email, current, secPass, matches).table, email, newPassword, matches)
              == LoggedIn(PasswordSet, t.rows[i].isAdmin)
  {
    var t' := ChangePassword(t, email, current, secPass, matches).table;
    var i := Lookup(t.rows, Email(email)).value;
    assert HasKey(t'.rows[i], Email(email));
    assert forall j :: 0 <= j < i ==> !HasKey(t'.rows[j], Email(email));
    assert Lookup(t'.rows, Email(email)) == Some(i);
  }

  /** An UPDATE keyed on an e-mail keeps which row that e-mail selects. */
  lemma EmailEditKeepsLookup(rows: seq<User>, e: string, ed: Edit)
    ensures Lookup(UpdateWhere(rows, Email(e), ed), Email(e)) == Lookup(rows, Email(e))
  {
    var r := UpdateWhere(rows, Email(e), ed);
    assert forall j :: 0 <= j < |rows| ==> (HasKey(r[j], Email(e)) <==> HasKey(rows[j], Email(e)));
    var a, b := Lookup(r, Email(e)), Lookup(rows, Email(e));
    if a.Some? && b.Some? {
      assert !(a.value < b.value) && !(b.value < a.value);
    }
  }

  /** Mailing credentials does not move the flag off 0, so the request can be repeated: the second
      call issues fresh credentials again, with the first code of the new stream that is still free,
      instead of answering "already generated". */
  lemma CredentialsCanBeResent(t: UserTable, email: string, secPass: string, codes: seq<string>, mailSent: bool,
                               secPass2: string, codes2: seq<string>, mailSent2: bool)
    ensures var first := VerifyMember(t, email, secPass, codes, mailSent);
            first.outcome in {Done, MailNotSent} ==>
            VerifyMember(first.table, email, secPass2, codes2, mailSent2).outcome
              == if FirstUnusedCode(first.table.rows, codes2).Some? then MailOutcome(mailSent2) else NeverAnswers
  {
    if VerifyMember(t, email, secPass, codes, mailSent).outcome !in {Done, MailNotSent} {
      return;
    }
    var i := Lookup(t.rows, Email(email)).value;
    var n := CreditsFor(t.rows[i].category);
    var code := FirstUnusedCode(t.rows, codes).value;
    var rows := UpdateWhere(t.rows, Email(email), IssueCredentials(secPass, code, n));
    assert VerifyMember(t, email, secPass, codes, mailSent).table.rows == rows;
    EmailEditKeepsLookup(t.rows, email, IssueCredentials(secPass, code, n));
    assert rows[i].flagPasswordChange == CredentialsPending;
  }
}

=== FILE: accounts.dfy ===
/**
 * The `Community_User` table and the account handlers of the server's user
 * controller, as transitions `(UserTable, request) -> (UserTable, Outcome)`.
 *
 * Every query of these handlers looks only at live rows (`isnull(delStatus,0) = 0`);
 * an UPDATE touches every live row that matches its key, and a lookup reads the
 * first matching row. Opaque collaborators become parameters: the bcrypt hash of
 * a new password is the given `secPass`, `bcrypt.compare` is the oracle `matches`,
 * the successive outputs of the referral-code generator are `codes`, and the mail
 * relay's verdict is `mailSent`.
 */
module Accounts {
  import opened Wrappers

  /** `FlagPasswordChange`: 0 = credentials not yet mailed, 1 = password set, 2 = reset pending. */
  const CredentialsPending: int := 0
  const PasswordSet: int := 1
  const ResetPending: int := 2

  datatype User = User(
    userId: int,
    name: string,
    email: string,
    collegeName: string,
    mobileNumber: string,
    category: string,
    designation: string,
    referralCount: int,
    referralCode: Option<string>,
    password: string,
    flagPasswordChange: int,
    referredBy: Option<int>,
    isAdmin: Option<int>,
    delStatus: Option<int>)

  /** The table in storage order; `nextId` is the identity column's next value. */
  datatype UserTable = UserTable(rows: seq<User>, nextId: int)

  predicate Live(u: User) {
    u.delStatus.GetOr(0) == 0
  }

  /** Invite credits granted to a member of the given category. */
  function CreditsFor(category: string): int {
    if category == "F" then 10 else 2
  }

  /** The column a handler's WHERE clause matches on (always restricted to live rows). */
  datatype Key = Email(email: string) | ReferralCode(code: string)

  predicate HasKey(u: User, key: Key) {
    && Live(u)
    && match key
       case Email(e) => u.email == e
       case ReferralCode(c) => u.referralCode == Some(c)
  }

  /** Reference definition: some live row carries the key. */
  ghost predicate Holds(rows: seq<User>, key: Key) {
    exists i :: 0 <= i < |rows| && HasKey(rows[i], key)
  }

  function LookupFrom(rows: seq<User>, key: Key, from: nat): (r: Option<nat>)
    requires from <= |rows|
    decreases |rows| - from
    ensures r.Some? ==> from <= r.value < |rows| && HasKey(rows[r.value], key)
    ensures r.Some? ==> forall j :: from <= j < r.value ==> !HasKey(rows[j], key)
    ensures r.None? ==> forall j :: from <= j < |rows| ==> !HasKey(rows[j], key)
  {
    if from == |rows| then None
    else if HasKey(rows[from], key) then Some(from)
    else LookupFrom(rows, key, from + 1)
  }

  /** `rows[0]` of a SELECT: the index of the first live row with the key, if any. */
  function Lookup(rows: seq<User>, key: Key): (r: Option<nat>)
    ensures r.Some? <==> Holds(rows, key)
    ensures r.Some? ==> r.value < |rows| && HasKey(rows[r.value], key)
    ensures r.Some? ==> forall j :: 0 <= j < r.value ==> !HasKey(rows[j], key)
  {
    LookupFrom(rows, key, 0)
  }

  /** The SET part of the UPDATE statements. */
  datatype Edit =
    | IssueCredentials(password: string, code: string, credits: int)
    | SetCredits(credits: int)
    | SetPassword(password: string)
    | SetFlag(flag: int)

  function Apply(u: User, e: Edit): User {
    match e
    case IssueCredentials(p, c, n) => u.(password := p, referralCode := Some(c), referralCount := n)
    case SetCredits(n) => u.(referralCount := n)
    case SetPassword(p) => u.(password := p, flagPasswordChange := PasswordSet)
    case SetFlag(f) => u.(flagPasswordChange := f)
  }

  /** `UPDATE Community_User SET <edit> WHERE isnull(delStatus,0) = 0 AND <key>`. */
  function UpdateWhere(rows: seq<User>, key: Key, e: Edit): (r: seq<User>)
    ensures |r| == |rows|
    ensures forall i :: 0 <= i < |rows| ==> r[i] == if HasKey(rows[i], key) then Apply(rows[i], e) else rows[i]
  {
    seq(|rows|, i requires 0 <= i < |rows| => if HasKey(rows[i], key) then Apply(rows[i], e) else rows[i])
  }

  /** `DELETE FROM Community_User WHERE UserID = ?`: every row with the id goes, live or not. */
  function DeleteId(rows: seq<User>, id: int): (r: seq<User>)
    ensures |r| <= |rows|
    ensures forall u :: u in r <==> u in rows && u.userId != id
  {
    if rows == [] then []
    else if rows[0].userId == id then DeleteId(rows[1..], id)
    else [rows[0]] + DeleteId(rows[1..], id)
  }

  /** Each surviving row is kept as often as it occurred; rows with the id are all gone. */
  lemma {:induction false} DeleteIdCounts(rows: seq<User>, id: int, u: User)
    ensures multiset(DeleteId(rows, id))[u] == if u.userId == id then 0 else multiset(rows)[u]
  {
    if rows != [] {
      var rest := rows[1..];
      DeleteIdCounts(rest, id, u);
      assert rows == [rows[0]] + rest;
      assert multiset(rows) == multiset{rows[0]} + multiset(rest);
      if rows[0].userId != id {
        assert multiset(DeleteId(rows, id)) == multiset{rows[0]} + multiset(DeleteId(rest, id));
      }
    }
  }

  /** The DELETE works row by row: the survivors of `a + b` are those of `a`, then those of `b`,
      each in its old place. */
  lemma {:induction false} DeleteIdAppend(a: seq<User>, b: seq<User>, id: int)
    ensures DeleteId(a + b, id) == DeleteId(a, id) + DeleteId(b, id)
  {
    if a == [] {
      assert a + b == b;
    } else {
      assert (a + b)[0] == a[0];
      assert (a + b)[1..] == a[1..] + b;
      DeleteIdAppend(a[1..], b, id);
    }
  }

  /** A single row survives exactly when it carries another id. */
  lemma DeleteIdSingle(u: User, id: int)
    ensures DeleteId([u], id) == if u.userId == id then [] else [u]
  {
    assert [u][1..] == [];
  }

  function FirstUnusedFrom(rows: seq<User>, codes: seq<string>, from: nat): (r: Option<nat>)
    requires from <= |codes|
    decreases |codes| - from
    ensures r.Some? ==> from <= r.value < |codes| && !Holds(rows, ReferralCode(codes[r.value]))
    ensures r.Some? ==> forall j :: from <= j < r.value ==> Holds(rows, ReferralCode(codes[j]))
    ensures r.None? ==> forall j :: from <= j < |codes| ==> Holds(rows, ReferralCode(codes[j]))
  {
    if from == |codes| then None
    else if Lookup(rows, ReferralCode(codes[from])).None? then Some(from)
    else FirstUnusedFrom(rows, codes, from + 1)
  }

  /** The referral-code retry loop: the first generated code that no live user holds.
      `None` when the generator never yields one, in which case the source loops forever. */
  function FirstUnusedCode(rows: seq<User>, codes: seq<string>): (r: Option<string>)
    ensures r.Some? ==> r.value in codes && !Holds(rows, ReferralCode(r.value))
    ensures r.Some? ==> exists k :: 0 <= k < |codes| && codes[k] == r.value
                          && forall j :: 0 <= j < k ==> Holds(rows, ReferralCode(codes[j]))
    ensures r.None? <==> forall k :: 0 <= k < |codes| ==> Holds(rows, ReferralCode(codes[k]))
  {
    match FirstUnusedFrom(rows, codes, 0)
    case None => None
    case Some(k) => Some(codes[k])
  }

  datatype Outcome =
    | Done                                      // success: true
    | LoggedIn(flag: int, isAdmin: Option<int>) // login's payload (the signed token is left out)
    | BadRequest                                // HTTP 400
    | UserNotFound                              // unknown or deleted e-mail / id
    | EmailTaken
    | NoCredits
    | AlreadyGenerated                          // credentials were mailed before
    | WrongCredentials
    | InvalidLink                               // no reset pending for this e-mail
    | LinkNotValid                              // wrong signature
    | MailNotSent                               // the table changed, the mail relay failed
    | ServerError                               // HTTP 500 from a runtime error
    | NeverAnswers                              // the code-generation loop does not terminate

  datatype Reply = Reply(table: UserTable, outcome: Outcome)

  datatype RegistrationForm = RegistrationForm(
    inviteCode: string, name: string, email: string, collegeName: string,
    phoneNumber: string, category: string, designation: string)

  function MailOutcome(mailSent: bool): Outcome {
    if mailSent then Done else MailNotSent
  }

  /** Route 0, `databaseUserVerification`: mail generated credentials to a listed member whose
      flag is still 0, setting password, referral code and credits (the flag is not touched). */
  function VerifyMember(t: UserTable, email: string, secPass: string, codes: seq<string>, mailSent: bool): (r: Reply)
    ensures !Holds(t.rows, Email(email)) <==> r == Reply(t, UserNotFound)
    ensures r.outcome == AlreadyGenerated <==>
              Holds(t.rows, Email(email)) && t.rows[Lookup(t.rows, Email(email)).value].flagPasswordChange != CredentialsPending
    ensures r.outcome !in {Done, MailNotSent} ==> r.table == t
    ensures r.outcome in {Done, MailNotSent} ==>
              && Holds(t.rows, Email(email))
              && var u := t.rows[Lookup(t.rows, Email(email)).value];
              && u.flagPasswordChange == CredentialsPending
              && r.table.nextId == t.nextId && |r.table.rows| == |t.rows|
              && FirstUnusedCode(t.rows, codes).Some?
              && var code := FirstUnusedCode(t.rows, codes).value;
              && forall i :: 0 <= i < |t.rows| ==> (r.table.rows[i] ==
                   if HasKey(t.rows[i], Email(email))
                   then t.rows[i].(password := secPass, referralCode := Some(code), referralCount := CreditsFor(u.category))
                   else t.rows[i])
    ensures r.outcome == NeverAnswers <==>
              && Holds(t.rows, Email(email))
              && t.rows[Lookup(t.rows, Email(email)).value].flagPasswordChange == CredentialsPending
              && FirstUnusedCode(t.rows, codes).None?
    ensures r.outcome in {Done, MailNotSent} ==> (r.outcome == Done <==> mailSent)
    ensures r.outcome in {UserNotFound, AlreadyGenerated, NeverAnswers, Done, MailNotSent}
  {
    match Lookup(t.rows, Email(email))
    case None => Reply(t, UserNotFound)
    case Some(i) =>
      var u := t.rows[i];
      if u.flagPasswordChange != CredentialsPending then Reply(t, AlreadyGenerated)
      else match FirstUnusedCode(t.rows, codes)
        case None => Reply(t, NeverAnswers)
        case Some(code) =>
          var rows := UpdateWhere(t.rows, Email(email), IssueCredentials(secPass, code, CreditsFor(u.category)));
          Reply(t.(rows := rows), MailOutcome(mailSent))
  }

  /** The row a successful registration inserts. */
  function NewMember(id: int, form: RegistrationForm, secPass: string, code: string, inviterId: int): User {
    User(id, form.name, form.email, form.collegeName, form.phoneNumber, form.category, form.designation,
         CreditsFor(form.category), Some(code), secPass, PasswordSet, Some(inviterId), None, Some(0))
  }

  /** Route 1, `registration`: consume one credit of the inviter and insert the new member. */
  function Register(t: UserTable, form: RegistrationForm, secPass: string, codes: seq<string>): (r: Reply)
    ensures Holds(t.rows, Email(form.email)) ==> r == Reply(t, EmailTaken)
    ensures !Holds(t.rows, Email(form.email)) && !Holds(t.rows, ReferralCode(form.inviteCode)) ==> r == Reply(t, ServerError)
    ensures r.outcome == NoCredits <==>
              && !Holds(t.rows, Email(form.email)) && Holds(t.rows, ReferralCode(form.inviteCode))
              && t.rows[Lookup(t.rows, ReferralCode(form.inviteCode)).value].referralCount <= 0
    ensures r.outcome !in {Done, NeverAnswers} ==> r.table == t
    ensures r.outcome in {Done, NeverAnswers} <==>
              && !Holds(t.rows, Email(form.email)) && Holds(t.rows, ReferralCode(form.inviteCode))
              && t.rows[Lookup(t.rows, ReferralCode(form.inviteCode)).value].referralCount > 0
    ensures r.outcome in {Done, NeverAnswers} ==>
              r == Admit(t, form, secPass, codes, Lookup(t.rows, ReferralCode(form.inviteCode)).value)
    ensures r.outcome in {EmailTaken, ServerError, NoCredits, Done, NeverAnswers}
  {
    if Lookup(t.rows, Email(form.email)).Some? then Reply(t, EmailTaken)
    else match Lookup(t.rows, ReferralCode(form.inviteCode))
      case None => Reply(t, ServerError)
      case Some(i) =>
        if t.rows[i].referralCount <= 0 then Reply(t, NoCredits)
        else Admit(t, form, secPass, codes, i)
  }

  /** The part of `registration` after the inviter row `t.rows[i]` is found with credits left:
      deduct one credit from every row holding the invite code, then append the new member. */
  function Admit(t: UserTable, form: RegistrationForm, secPass: string, codes: seq<string>, i: nat): (r: Reply)
    requires i < |t.rows| && HasKey(t.rows[i], ReferralCode(form.inviteCode)) && t.rows[i].referralCount > 0
    ensures r.outcome in {Done, NeverAnswers}
    ensures r.outcome == Done <==> FirstUnusedCode(t.rows, codes).Some?
    ensures |r.table.rows| >= |t.rows|
    ensures forall j :: 0 <= j < |t.rows| ==> (r.table.rows[j] ==
              if HasKey(t.rows[j], ReferralCode(form.inviteCode))
              then t.rows[j].(referralCount := t.rows[i].referralCount - 1)
              else t.rows[j])
    ensures r.outcome == Done ==>
              && |r.table.rows| == |t.rows| + 1 && r.table.nextId == t.nextId + 1
              && var u := r.table.rows[|t.rows|];
              && u.userId == t.nextId && u.email == form.email && u.name == form.name
              && u.category == form.category && u.password == secPass
              && u.referralCount == (if form.category == "F" then 10 else 2)
              && u.flagPasswordChange == 1 && u.referredBy == Some(t.rows[i].userId)
              && u.delStatus == Some(0) && u.referralCode.Some? && u.referralCode.value in codes
              && forall j :: 0 <= j < |t.rows| && Live(t.rows[j]) ==> t.rows[j].referralCode != u.referralCode
    ensures r.outcome == Done ==> r.table.rows[|t.rows|].referralCode == FirstUnusedCode(t.rows, codes)
    ensures r.outcome == NeverAnswers ==> |r.table.rows| == |t.rows| && r.table.nextId == t.nextId
  {
    var inviter := t.rows[i];
    var deducted := UpdateWhere(t.rows, ReferralCode(form.inviteCode), SetCredits(inviter.referralCount - 1));
    CreditsKeepFirstUnused(t.rows, ReferralCode(form.inviteCode), inviter.referralCount - 1, codes);
    match FirstUnusedCode(deducted, codes)
    case None => Reply(t.(rows := deducted), NeverAnswers)
    case Some(code) =>
      SameCodesAfterCredits(t.rows, ReferralCode(form.inviteCode), inviter.referralCount - 1, code);
      var u := NewMember(t.nextId, form, secPass, code, inviter.userId);
      Reply(UserTable(deducted + [u], t.nextId + 1), Done)
  }

  /** The code search gives the same answer before and after a credit UPDATE. */
  lemma CreditsKeepFirstUnused(rows: seq<User>, key: Key, n: int, codes: seq<string>)
    ensures FirstUnusedCode(UpdateWhere(rows, key, SetCredits(n)), codes) == FirstUnusedCode(rows, codes)
  {
    var deducted := UpdateWhere(rows, key, SetCredits(n));
    forall c ensures Holds(deducted, ReferralCode(c)) <==> Holds(rows, ReferralCode(c)) {
      SameCodesAfterCredits(rows, key, n, c);
    }
    SameHoldersSameSearch(deducted, rows, codes, 0);
  }

  /** The code search only looks at which codes are held. */
  lemma {:induction false} SameHoldersSameSearch(a: seq<User>, b: seq<User>, codes: seq<string>, from: nat)
    requires from <= |codes|
    requires forall c :: Holds(a, ReferralCode(c)) <==> Holds(b, ReferralCode(c))
    decreases |codes| - from
    ensures FirstUnusedFrom(a, codes, from) == FirstUnusedFrom(b, codes, from)
  {
    if from < |codes| {
      SameHoldersSameSearch(a, b, codes, from + 1);
    }
  }

  /** Changing credits changes nobody's referral code. */
  lemma SameCodesAfterCredits(rows: seq<User>, key: Key, n: int, code: string)
    ensures Holds(UpdateWhere(rows, key, SetCredits(n)), ReferralCode(code)) <==> Holds(rows, ReferralCode(code))
  {
    var r := UpdateWhere(rows, key, SetCredits(n));
    if Holds(rows, ReferralCode(code)) {
      var i :| 0 <= i < |rows| && HasKey(rows[i], ReferralCode(code));
      assert HasKey(r[i], ReferralCode(code));
    }
    if Holds(r, ReferralCode(code)) {
      var i :| 0 <= i < |r| && HasKey(r[i], ReferralCode(code));
      assert HasKey(rows[i], ReferralCode(code));
    }
  }

  /** Route 2, `login`: the stored flag and admin mark for a live member whose password matches. */
  function Login(t: UserTable, email: string, password: string, matches: (string, string) -> bool): (o: Outcome)
    ensures o.LoggedIn? <==>
              exists i :: 0 <= i < |t.rows| && HasKey(t.rows[i], Email(email)) && matches(password, t.rows[i].password)
                          && forall j :: 0 <= j < i ==> !HasKey(t.rows[j], Email(email))
    ensures o.LoggedIn? ==> Holds(t.rows, Email(email))
                            && var i := Lookup(t.rows, Email(email)).value;
                               o == LoggedIn(t.rows[i].flagPasswordChange, t.rows[i].isAdmin)
    ensures !o.LoggedIn? ==> o == WrongCredentials
  {
    match Lookup(t.rows, Email(email))
    case None => WrongCredentials
    case Some(i) =>
      if matches(password, t.rows[i].password) then LoggedIn(t.rows[i].flagPasswordChange, t.rows[i].isAdmin)
      else WrongCredentials
  }

  /** Route 3, `changePassword`: with the right current password, store the new hash and set flag 1. */
  function ChangePassword(t: UserTable, email: string, current: string, secPass: string,
                          matches: (string, string) -> bool): (r: Reply)
    ensures !Holds(t.rows, Email(email)) ==> r == Reply(t, UserNotFound)
    ensures r.outcome != Done ==> r.table == t
    ensures r.outcome == Done <==>
              Holds(t.rows, Email(email)) && matches(current, t.rows[Lookup(t.rows, Email(email)).value].password)
    ensures r.outcome in {UserNotFound, WrongCredentials, Done}
    ensures r.outcome == Done ==>
              && r.table.nextId == t.nextId && |r.table.rows| == |t.rows|
              && forall i :: 0 <= i < |t.rows| ==> (r.table.rows[i] ==
                   if HasKey(t.rows[i], Email(email))
                   then t.rows[i].(password := secPass, flagPasswordChange := 1)
                   else t.rows[i])
  {
    match Lookup(t.rows, Email(email))
    case None => Reply(t, UserNotFound)
    case Some(i) =>
      if !matches(current, t.rows[i].password) then Reply(t, WrongCredentials)
      else Reply(t.(rows := UpdateWhere(t.rows, Email(email), SetPassword(secPass))), Done)
  }

  /** Route 6, `passwordRecovery`: mark a reset as pending (flag 2) and mail the reset link. */
  function PasswordRecovery(t: UserTable, email: string, mailSent: bool): (r: Reply)
    ensures !Holds(t.rows, Email(email)) <==> r == Reply(t, UserNotFound)
    ensures Holds(t.rows, Email(email)) ==> (r.outcome == Done <==> mailSent)
    ensures Holds(t.rows, Email(email)) ==>
              && r.outcome in {Done, MailNotSent}
              && r.table.nextId == t.nextId && |r.table.rows| == |t.rows|
              && forall i :: 0 <= i < |t.rows| ==> (r.table.rows[i] ==
                   if HasKey(t.rows[i], Email(email)) then t.rows[i].(flagPasswordChange := 2) else t.rows[i])
  {
    match Lookup(t.rows, Email(email))
    case None => Reply(t, UserNotFound)
    case Some(_) => Reply(t.(rows := UpdateWhere(t.rows, Email(email), SetFlag(ResetPending))), MailOutcome(mailSent))
  }

  /** Route 7, `resetPassword`: only from flag 2 and with the configured signature; sets the new
      hash and flag 1. */
  function ResetPassword(t: UserTable, email: string, signature: string, configured: string, secPass: string): (r: Reply)
    ensures r.outcome != Done ==> r.table == t
    ensures r.outcome == Done <==>
              && Holds(t.rows, Email(email))
              && t.rows[Lookup(t.rows, Email(email)).value].flagPasswordChange == 2
              && signature == configured
    ensures r.outcome == LinkNotValid <==>
              && Holds(t.rows, Email(email))
              && t.rows[Lookup(t.rows, Email(email)).value].flagPasswordChange == 2
              && signature != configured
    ensures r.outcome == Done ==>
              && r.table.nextId == t.nextId && |r.table.rows| == |t.rows|
              && forall i :: 0 <= i < |t.rows| ==> (r.table.rows[i] ==
                   if HasKey(t.rows[i], Email(email))
                   then t.rows[i].(password := secPass, flagPasswordChange := 1)
                   else t.rows[i])
    ensures r.outcome in {Done, LinkNotValid, InvalidLink}
  {
    match Lookup(t.rows, Email(email))
    case None => Reply(t, InvalidLink)
    case Some(i) =>
      if t.rows[i].flagPasswordChange != ResetPending then Reply(t, InvalidLink)
      else if signature != configured then Reply(t, LinkNotValid)
      else Reply(t.(rows := UpdateWhere(t.rows, Email(email), SetPassword(secPass))), Done)
  }

  /** `getAllUser` with method DELETE: a missing or zero id is a bad request; otherwise remove
      every row with that id, reporting whether any existed. */
  function DeleteUser(t: UserTable, userId: Option<int>): (r: Reply)
    ensures userId.None? || userId == Some(0) ==> r == Reply(t, BadRequest)
    ensures r.outcome == UserNotFound <==>
              userId.Some? && userId.value != 0 && forall u :: u in t.rows ==> u.userId != userId.value
    ensures r.outcome in {BadRequest, UserNotFound, Done}
    ensures userId.Some? && userId.value != 0 && (exists u :: u in t.rows && u.userId == userId.value) ==>
              r.outcome == Done
    ensures r.outcome != Done ==> r.table == t
    ensures r.outcome == Done ==>
              && userId.Some? && r.table.nextId == t.nextId && |r.table.rows| < |t.rows|
              && (forall u :: u in r.table.rows <==> u in t.rows && u.userId != userId.value)
              && r.table.rows == DeleteId(t.rows, userId.value)
  {
    match userId
    case None => Reply(t, BadRequest)
    case Some(id) =>
      if id == 0 then Reply(t, BadRequest)
      else
        var rows := DeleteId(t.rows, id);
        DeleteNothing(t.rows, id);
        if |rows| < |t.rows| then Reply(t.(rows := rows), Done)
        else Reply(t, UserNotFound)
  }

  /** Removing an id that no row carries leaves the table as it is; removing one that some row
      carries shortens it. */
  lemma {:induction false} DeleteNothing(rows: seq<User>, id: int)
    ensures |DeleteId(rows, id)| == |rows| <==> forall u :: u in rows ==> u.userId != id
    ensures |DeleteId(rows, id)| == |rows| ==> DeleteId(rows, id) == rows
  {
    if rows != [] {
      DeleteNothing(rows[1..], id);
      assert rows == [rows[0]] + rows[1..];
      if rows[0].userId != id {
        assert forall u :: u in rows[1..] ==> u in rows;
      }
    }
  }
}

=== FILE: comma_list.dfy ===
/**
 * The tag and resource-link lists of a discussion: JavaScript's
 * `text.split(',')` followed by `.filter(piece => piece)`, which drops the
 * empty (falsy) pieces.
 */
module CommaList {
  import opened Wrappers

  const Comma: char := ','

  /** `s.split(',')`: the pieces between commas, always at least one (`"".split(',') == [""]`). */
  function Split(s: string): (pieces: seq<string>)
    ensures |pieces| >= 1
    ensures forall k :: 0 <= k < |pieces| ==> Comma !in pieces[k]
  {
    if s == [] then [""]
    else
      var rest := Split(s[1..]);
      if s[0] == Comma then [""] + rest
      else [[s[0]] + rest[0]] + rest[1..]
  }

  /** `pieces.join(',')`. */
  function Join(pieces: seq<string>): string
    requires |pieces| >= 1
  {
    if |pieces| == 1 then pieces[0] else pieces[0] + [Comma] + Join(pieces[1..])
  }

  /** `pieces.filter(p => p)`: keep the non-empty pieces, in order. */
  function DropEmpty(pieces: seq<string>): (r: seq<string>)
    ensures forall k :: 0 <= k < |r| ==> r[k] != "" && r[k] in pieces
    ensures forall p :: p in pieces && p != "" ==> p in r
    ensures |r| == |pieces| - multiset(pieces)[""]
  {
    if pieces == [] then []
    else
      assert pieces == [pieces[0]] + pieces[1..];
      if pieces[0] == "" then DropEmpty(pieces[1..])
      else [pieces[0]] + DropEmpty(pieces[1..])
  }

  /** All pieces glued together without a separator. */
  function Concat(pieces: seq<string>): string {
    if pieces == [] then "" else pieces[0] + Concat(pieces[1..])
  }

  /** The text with every comma deleted. */
  function RemoveCommas(s: string): (r: string)
    ensures Comma !in r
  {
    if s == [] then ""
    else if s[0] == Comma then RemoveCommas(s[1..])
    else [s[0]] + RemoveCommas(s[1..])
  }

  /** The list a discussion renders from its `Tag` (or `ResourceUrl`) column: nothing when the
      column is null or empty, otherwise the non-empty comma-separated pieces. */
  function ListItems(column: Option<string>): (items: seq<string>)
    ensures forall k :: 0 <= k < |items| ==> items[k] != "" && Comma !in items[k]
    ensures column.Some? ==> Concat(items) == RemoveCommas(column.value)
    ensures column.Some? ==> items == DropEmpty(Split(column.value))
  {
    match column
    case None => []
    case Some(text) =>
      if text == "" then []
      else
        SplitThenDropConcat(text);
        DropEmpty(Split(text))
  }

  /** The filter works piece by piece: the kept pieces of `a + b` are those of `a`, then those of `b`. */
  lemma {:induction false} DropEmptyAppend(a: seq<string>, b: seq<string>)
    ensures DropEmpty(a + b) == DropEmpty(a) + DropEmpty(b)
  {
    if a == [] {
      assert a + b == b;
    } else {
      assert (a + b)[1..] == a[1..] + b;
      DropEmptyAppend(a[1..], b);
    }
  }

  /** A single piece is kept exactly when it is non-empty. */
  lemma DropEmptySingle(p: string)
    ensures DropEmpty([p]) == if p == "" then [] else [p]
  {
    assert [p][1..] == [];
  }

  /** One step of the split: a comma starts a new piece, any other character joins the first one. */
  lemma SplitCons(c: char, x: string)
    ensures Split([c] + x) == if c == Comma then [""] + Split(x) else [[c] + Split(x)[0]] + Split(x)[1..]
  {
    assert ([c] + x)[0] == c && ([c] + x)[1..] == x;
  }

  /** A comma cuts the text in two: the pieces of `a,b` are the pieces of `a` followed by those of `b`. */
  lemma {:induction false} SplitComma(a: string, b: string)
    ensures Split(a + [Comma] + b) == Split(a) + Split(b)
  {
    if a == [] {
      assert a + [Comma] + b == [Comma] + b;
      SplitCons(Comma, b);
    } else {
      var x := a[1..] + [Comma] + b;
      assert a + [Comma] + b == [a[0]] + x;
      assert a == [a[0]] + a[1..];
      SplitComma(a[1..], b);
      SplitCons(a[0], x);
      SplitCons(a[0], a[1..]);
      if a[0] != Comma {
        GlueFirst([a[0]], Split(x), Split(a[1..]), Split(b));
      }
    }
  }

  /** Gluing text onto the first piece commutes with appending more pieces. */
  lemma GlueFirst(c: string, p: seq<string>, r: seq<string>, q: seq<string>)
    requires |r| >= 1 && p == r + q
    ensures [c + p[0]] + p[1..] == ([c + r[0]] + r[1..]) + q
  {
    assert p[0] == r[0];
    assert p[1..] == r[1..] + q;
  }

  /** The listed items of `a,b` are the items of `a` followed by the items of `b`, so every
      non-empty piece is listed, in order, and empty pieces leave no trace. */
  lemma ListItemsComma(a: string, b: string)
    ensures ListItems(Some(a + [Comma] + b)) == ListItems(Some(a)) + ListItems(Some(b))
  {
    SplitComma(a, b);
    DropEmptyAppend(Split(a), Split(b));
    assert DropEmpty(Split("")) == [] by { DropEmptySingle(""); }
  }

  /** A leading comma leaves no empty item: `",b"` lists only `b`. */
  lemma LeadingCommaDropsOut(b: string)
    requires b != "" && Comma !in b
    ensures ListItems(Some([Comma] + b)) == [b]
  {
    ListItemsComma([], b);
    assert [] + [Comma] + b == [Comma] + b;
    SingleItem(b);
  }

  /** A doubled comma leaves no empty item: `"a,,b"` lists `a` and `b`. */
  lemma DoubledCommaDropsOut(a: string, b: string)
    requires a != "" && Comma !in a
    requires b != "" && Comma !in b
    ensures ListItems(Some(a + [Comma, Comma] + b)) == [a, b]
  {
    var tail := [Comma] + b;
    assert a + [Comma] + tail == a + [Comma, Comma] + b;
    ListItemsComma(a, tail);
    LeadingCommaDropsOut(b);
    SingleItem(a);
  }

  /** Splitting and re-joining with the separator gives back the original text. */
  lemma {:induction false} JoinSplit(s: string)
    ensures Join(Split(s)) == s
  {
    if s != [] {
      JoinSplit(s[1..]);
      var rest := Split(s[1..]);
      if s[0] == Comma {
        assert Split(s) == [""] + rest;
        assert (([""] + rest)[1..]) == rest;
        if |rest| == 1 {
          assert Join(Split(s)) == "" + [Comma] + rest[0];
        }
        assert s == [s[0]] + s[1..];
      } else {
        var p := [[s[0]] + rest[0]] + rest[1..];
        assert Split(s) == p;
        if |rest| == 1 {
          assert Join(p) == [s[0]] + rest[0];
        } else {
          assert p[1..] == rest[1..];
          assert Join(p) == [s[0]] + rest[0] + [Comma] + Join(rest[1..]);
          assert Join(rest) == rest[0] + [Comma] + Join(rest[1..]);
        }
        assert s == [s[0]] + s[1..];
      }
    }
  }

  /** One more comma in the text is one more piece in the split. */
  lemma {:induction false} SplitCount(s: string)
    ensures |Split(s)| == 1 + multiset(s)[Comma]
  {
    if s != [] {
      SplitCount(s[1..]);
      assert s == [s[0]] + s[1..];
      assert multiset(s) == multiset([s[0]]) + multiset(s[1..]);
    }
  }

  lemma {:induction false} DropEmptyConcat(pieces: seq<string>)
    ensures Concat(DropEmpty(pieces)) == Concat(pieces)
  {
    if pieces != [] {
      DropEmptyConcat(pieces[1..]);
      if pieces[0] != "" {
        assert ([pieces[0]] + DropEmpty(pieces[1..]))[1..] == DropEmpty(pieces[1..]);
      }
    }
  }

  /** The filtered list loses only the separators: its pieces, glued back, are the text without commas. */
  lemma {:induction false} SplitThenDropConcat(s: string)
    ensures Concat(DropEmpty(Split(s))) == RemoveCommas(s)
  {
    DropEmptyConcat(Split(s));
    SplitConcat(s);
  }

  lemma {:induction false} SplitConcat(s: string)
    ensures Concat(Split(s)) == RemoveCommas(s)
  {
    if s != [] {
      SplitConcat(s[1..]);
      var rest := Split(s[1..]);
      if s[0] == Comma {
        assert ([""] + rest)[1..] == rest;
      } else {
        var p := [[s[0]] + rest[0]] + rest[1..];
        assert p[1..] == rest[1..];
        assert Concat(rest) == rest[0] + Concat(rest[1..]);
        assert Concat(p) == [s[0]] + rest[0] + Concat(rest[1..]);
      }
    }
  }

  /** A non-empty text without commas is a single item. */
  lemma SingleItem(s: string)
    requires s != "" && Comma !in s
    ensures ListItems(Some(s)) == [s]
  {
    SplitNoComma(s);
  }

  lemma {:induction false} SplitNoComma(s: string)
    requires Comma !in s
    ensures Split(s) == [s]
  {
    if s != [] {
      assert s[0] in s;
      assert forall c :: c in s[1..] ==> c in s;
      SplitNoComma(s[1..]);
      assert [s[0]] + s[1..] == s;
    }
  }

  lemma {:induction false} DropEmptyOfNonEmpty(pieces: seq<string>)
    requires forall k :: 0 <= k < |pieces| ==> pieces[k] != ""
    ensures DropEmpty(pieces) == pieces
  {
    if pieces != [] {
      DropEmptyOfNonEmpty(pieces[1..]);
      assert [pieces[0]] + pieces[1..] == pieces;
    }
  }

  /** When no piece is empty (no leading, trailing or doubled comma), the rendered items joined
      with commas give back the column text. */
  lemma ListItemsRejoin(s: string)
    requires s != ""
    requires forall k :: 0 <= k < |Split(s)| ==> Split(s)[k] != ""
    ensures |ListItems(Some(s))| >= 1 && Join(ListItems(Some(s))) == s
  {
    DropEmptyOfNonEmpty(Split(s));
    JoinSplit(s);
  }
}

=== FILE: discussion_modal.dfy ===
/**
 * The discussion modal of the client: adding a comment, typing and posting a reply, and the
 * tag and link lists shown beside the post.
 *
 * The network call is a parameter: `PostResult` says how `fetchData` answered, and every
 * handler returns the request it sent (if any) next to the new component state. Toasts,
 * timestamps and rendering are not modelled.
 */
module DiscussionModal {
  import opened Wrappers
  import JsText
  import CommaList

  /** A comment object the modal holds: a server comment, a reply, or one added locally.
      `userLike` is `None` when the object has no `userLike` key. */
  datatype Entry = Entry(
    userId: int, userName: string, discussionId: Option<int>, text: Option<string>,
    likeCount: int, userLike: Option<int>, replies: seq<Entry>)

  /** The `discussion` prop (only the parts the handlers touch). */
  datatype Discussion = Discussion(
    discussionId: int, tag: Option<string>, resourceUrl: Option<string>, comments: seq<Entry>)

  /** An element of `dissComments`: author "New User", no likes, no replies. */
  datatype LocalComment = LocalComment(discussion: int, text: string)

  datatype User = User(userId: int, name: string)

  /** `userToken` and `user` from the API context. */
  datatype Session = Session(token: Option<string>, user: User)

  /** The body and auth header of a POST to `discussion/discussionpost`; a field that is
      `undefined` in the source is `None`. */
  datatype PostRequest = PostRequest(token: string, reference: Option<int>, comment: Option<string>)

  /** How the POST ended: `success` true, `success` false, or an exception. */
  datatype PostResult = Accepted | Refused | Threw

  datatype ModalState = ModalState(
    discussion: Discussion,
    dissComments: seq<LocalComment>,
    demoDiscussions: seq<Discussion>,
    newComment: string,
    replyTexts: map<int, string>,
    loading: bool)

  datatype Effect = Effect(state: ModalState, sent: Option<PostRequest>)

  /** The component's state when it opens on `d`. */
  function Opened(d: Discussion): (s: ModalState)
    ensures s.discussion == d && s.demoDiscussions == [] && s.replyTexts == map[] && !s.loading
  {
    ModalState(d, [], [], "", map[], false)
  }

  /** The object prepended after a successful comment POST. The server's answer carries no
      `postId`, so its `DiscussionID` is undefined, and it spells the like flag `UserLike`. */
  function PostedComment(user: User, text: string): Entry {
    Entry(user.userId, user.name, None, Some(text), 0, None, [])
  }

  /** `handleAddComment(id)` with `id` the discussion's id. With a token it POSTs the draft and, on
      success, prepends the new comment to the discussion's list; independently, a draft that is
      not blank is appended to `dissComments` and cleared. */
  function HandleAddComment(s: ModalState, session: Session, id: int, result: PostResult): (e: Effect)
    ensures e.sent.Some? <==> session.token.Some?
    ensures e.sent.Some? ==> e.sent.value == PostRequest(session.token.value, Some(id), Some(s.newComment))
    ensures session.token.Some? && result == Accepted ==>
              && |e.state.discussion.comments| == |s.discussion.comments| + 1
              && e.state.discussion.comments[1..] == s.discussion.comments
              && e.state.discussion.comments[0].text == Some(s.newComment)
              && e.state.discussion.comments[0].userId == session.user.userId
              && e.state.discussion.comments[0].userName == session.user.name
              && e.state.discussion.comments[0].likeCount == 0
              && e.state.discussion.comments[0].replies == []
              && e.state.discussion.comments[0].discussionId == None
              && e.state.discussion.comments[0].userLike == None
    ensures !(session.token.Some? && result == Accepted) ==> e.state.discussion == s.discussion
    ensures e.state.discussion.discussionId == s.discussion.discussionId
    ensures e.state.discussion.(comments := s.discussion.comments) == s.discussion
    ensures JsText.AllWhitespace(s.newComment) ==>
              e.state.newComment == s.newComment && e.state.dissComments == s.dissComments
    ensures !JsText.AllWhitespace(s.newComment) ==>
              && e.state.newComment == ""
              && e.state.dissComments == s.dissComments + [LocalComment(s.discussion.discussionId, s.newComment)]
    ensures e.state.demoDiscussions == s.demoDiscussions && e.state.replyTexts == s.replyTexts
    ensures e.state.loading == (s.loading && session.token.None?)
  {
    var posted :=
      match session.token
      case None => s
      case Some(_) =>
        if result == Accepted then
          s.(discussion := s.discussion.(comments := [PostedComment(session.user, s.newComment)] + s.discussion.comments),
             loading := false)
        else s.(loading := false);
    var sent :=
      match session.token
      case None => None
      case Some(token) => Some(PostRequest(token, Some(id), Some(s.newComment)));
    JsText.TrimEmptyIffBlank(s.newComment);
    if JsText.Trim(s.newComment) != "" then
      Effect(posted.(dissComments := posted.dissComments + [LocalComment(s.discussion.discussionId, s.newComment)],
                     newComment := ""),
             sent)
    else Effect(posted, sent)
  }

  /** What the reply box of comment `index` shows: `replyTexts[index] || ""`. */
  function ShownReply(s: ModalState, index: int): string {
    if index in s.replyTexts then s.replyTexts[index] else ""
  }

  /** What `replyTexts[index]` passes to `handleAddReply`: undefined when never typed. */
  function ReplyArgument(s: ModalState, index: int): Option<string> {
    if index in s.replyTexts then Some(s.replyTexts[index]) else None
  }

  /** `handleReplyTextChange(index, text)`: the box of comment `index` now holds `text`; every
      other box keeps its text, and nothing else changes. */
  function HandleReplyTextChange(s: ModalState, index: int, text: string): (t: ModalState)
    ensures ShownReply(t, index) == text && ReplyArgument(t, index) == Some(text)
    ensures forall j :: j != index ==> ShownReply(t, j) == ShownReply(s, j) && ReplyArgument(t, j) == ReplyArgument(s, j)
    ensures t.replyTexts.Keys == s.replyTexts.Keys + {index}
    ensures t.(replyTexts := s.replyTexts) == s
  {
    s.(replyTexts := s.replyTexts[index := text])
  }

  /** The object appended to a comment's replies after a successful reply POST. */
  function PostedReply(user: User, text: Option<string>, id: Option<int>): Entry {
    Entry(user.userId, user.name, id, text, 0, Some(0), [])
  }

  /** The comment list with `reply` appended to the replies of the comment at `index` (if any). */
  function AppendReplyAt(cs: seq<Entry>, index: int, reply: Entry): (r: seq<Entry>)
    ensures |r| == |cs|
    ensures forall k :: 0 <= k < |r| && k != index ==> r[k] == cs[k]
    ensures 0 <= index < |cs| ==> r[index] == cs[index].(replies := cs[index].replies + [reply])
  {
    seq(|cs|, k requires 0 <= k < |cs| =>
      if k == index then cs[k].(replies := cs[k].replies + [reply]) else cs[k])
  }

  /** The `demoDiscussions.map(...)` of `handleAddReply`: only discussions whose id equals `id`
      (the id of the replied-to COMMENT) change, and in them only the comment at `index`. */
  function AddReply(ds: seq<Discussion>, id: Option<int>, index: int, reply: Entry): (r: seq<Discussion>)
    ensures |r| == |ds|
    ensures forall k :: 0 <= k < |r| && id != Some(ds[k].discussionId) ==> r[k] == ds[k]
    ensures forall k :: 0 <= k < |r| && id == Some(ds[k].discussionId) ==>
              r[k] == ds[k].(comments := AppendReplyAt(ds[k].comments, index, reply))
  {
    seq(|ds|, k requires 0 <= k < |ds| =>
      if id == Some(ds[k].discussionId) then ds[k].(comments := AppendReplyAt(ds[k].comments, index, reply))
      else ds[k])
  }

  /** `handleAddReply(commentIndex, replyText, id)` as written. Without a token nothing happens;
      otherwise the reply is POSTed and, only on success, added to `demoDiscussions` and the reply
      box is cleared. */
  function HandleAddReply(s: ModalState, session: Session, commentIndex: int, replyText: Option<string>,
                          id: Option<int>, result: PostResult): (e: Effect)
    ensures e.sent.Some? <==> session.token.Some?
    ensures e.sent.Some? ==> e.sent.value == PostRequest(session.token.value, id, replyText)
    ensures session.token.None? ==> e.state == s
    ensures session.token.Some? && result != Accepted ==> e.state == s.(loading := false)
    ensures session.token.Some? && result == Accepted ==>
              && e.state.demoDiscussions
                   == AddReply(s.demoDiscussions, id, commentIndex, PostedReply(session.user, replyText, id))
              && ShownReply(e.state, commentIndex) == ""
              && (forall j :: j != commentIndex ==> ShownReply(e.state, j) == ShownReply(s, j))
              && e.state.discussion == s.discussion
              && e.state.dissComments == s.dissComments && e.state.newComment == s.newComment
              && !e.state.loading
  {
    match session.token
    case None => Effect(s, None)
    case Some(token) =>
      var sent := Some(PostRequest(token, id, replyText));
      if result == Accepted then
        var reply := PostedReply(session.user, replyText, id);
        Effect(s.(demoDiscussions := AddReply(s.demoDiscussions, id, commentIndex, reply),
                  replyTexts := s.replyTexts[commentIndex := ""],
                  loading := false),
               sent)
      else Effect(s.(loading := false), sent)
  }

  /** Nothing ever fills `demoDiscussions`, so a reply posted through the modal never reaches the
      list the modal shows: after any sequence of reply posts from the opened state the displayed
      comments are the ones it opened with. */
  lemma {:induction false} RepliesNeverShown(d: Discussion, session: Session,
                                             posts: seq<(int, Option<string>, Option<int>, PostResult)>)
    ensures var s := ReplayReplies(Opened(d), session, posts);
            s.demoDiscussions == [] && s.discussion == d
  {
    if posts != [] {
      RepliesNeverShown(d, session, posts[..|posts| - 1]);
    }
  }

  function ReplayReplies(s: ModalState, session: Session,
                         posts: seq<(int, Option<string>, Option<int>, PostResult)>): ModalState
  {
    if posts == [] then s
    else
      var last := posts[|posts| - 1];
      HandleAddReply(ReplayReplies(s, session, posts[..|posts| - 1]), session, last.0, last.1, last.2, last.3).state
  }

  /** The reply handler as evidently intended: on success the reply is appended to the replies of
      the displayed comment at `commentIndex`. */
  function HandleAddReplyShown(s: ModalState, session: Session, commentIndex: int, replyText: Option<string>,
                               id: Option<int>, result: PostResult): (e: Effect)
    ensures e.sent == HandleAddReply(s, session, commentIndex, replyText, id, result).sent
    ensures session.token.Some? && result == Accepted && 0 <= commentIndex < |s.discussion.comments| ==>
              var before := s.discussion.comments;
              var after := e.state.discussion.comments;
              && |after| == |before|
              && after[commentIndex].replies == before[commentIndex].replies + [PostedReply(session.user, replyText, id)]
              && (forall k :: 0 <= k < |after| && k != commentIndex ==> after[k] == before[k])
              && ShownReply(e.state, commentIndex) == ""
    ensures !(session.token.Some? && result == Accepted) ==>
              e.state == HandleAddReply(s, session, commentIndex, replyText, id, result).state
  {
    match session.token
    case None => Effect(s, None)
    case Some(token) =>
      var sent := Some(PostRequest(token, id, replyText));
      if result == Accepted then
        var reply := PostedReply(session.user, replyText, id);
        var shown := s.discussion.(comments := AppendReplyAt(s.discussion.comments, commentIndex, reply));
        Effect(s.(discussion := shown, replyTexts := s.replyTexts[commentIndex := ""], loading := false), sent)
      else Effect(s.(loading := false), sent)
  }

  /** What the modal lists under a heading: `None` when the heading is hidden (the column is null
      or empty), otherwise the non-empty comma-separated pieces, possibly none. */
  function ShownList(column: Option<string>): (r: Option<seq<string>>)
    ensures r.None? <==> column == None || column == Some("")
    ensures r.Some? ==> forall k :: 0 <= k < |r.value| ==> r.value[k] != "" && CommaList.Comma !in r.value[k]
    ensures r.Some? ==> CommaList.Concat(r.value) == CommaList.RemoveCommas(column.value)
    ensures r.Some? ==> r.value == CommaList.ListItems(column)
  {
    if column == None || column == Some("") then None else Some(CommaList.ListItems(column))
  }

  /** The "Tags:" list of the discussion. */
  function Tags(d: Discussion): (r: Option<seq<string>>)
    ensures r.None? <==> d.tag == None || d.tag == Some("")
    ensures r.Some? ==> forall k :: 0 <= k < |r.value| ==> r.value[k] != "" && CommaList.Comma !in r.value[k]
    ensures r.Some? ==> r.value == CommaList.ListItems(d.tag)
  {
    ShownList(d.tag)
  }

  /** The "Links:" list of the discussion. */
  function Links(d: Discussion): (r: Option<seq<string>>)
    ensures r.None? <==> d.resourceUrl == None || d.resourceUrl == Some("")
    ensures r.Some? ==> forall k :: 0 <= k < |r.value| ==> r.value[k] != "" && CommaList.Comma !in r.value[k]
    ensures r.Some? ==> r.value == CommaList.ListItems(d.resourceUrl)
  {
    ShownList(d.resourceUrl)
  }
}

=== FILE: discussion_store.dfy ===
/**
 * The `Community_Discussion` table and the `discussionpost` handler. One row is a
 * thread, a comment, a reply or a like marker; `reference` points at the parent row
 * (0 for a top-level thread).
 */
module DiscussionStore {
  import opened Wrappers
  import Accounts

  datatype Row = Row(
    discussionId: int,
    userId: int,
    title: Option<string>,
    content: Option<string>,
    image: Option<string>,
    likes: Option<int>,
    comment: Option<string>,
    tag: Option<string>,
    visibility: Option<string>,
    reference: int,
    resourceUrl: Option<string>,
    authAdd: string,
    addOnDt: int,
    delStatus: Option<int>)

  /** The table in storage order; `nextId` is the identity column's next value. */
  datatype DiscussionTable = DiscussionTable(rows: seq<Row>, nextId: int)

  predicate Live(r: Row) {
    r.delStatus.GetOr(0) == 0
  }

  /** The request body: every field may be absent (`None` stands for both `undefined` and `null`). */
  datatype PostBody = PostBody(
    title: Option<string>, content: Option<string>, image: Option<string>, likes: Option<int>,
    comment: Option<string>, tags: Option<string>, url: Option<string>, visibility: Option<string>,
    reference: Option<int>)

  datatype PostOutcome = Posted | UserNotFound

  /** `discussionpost`: the poster is the first live user with the token's e-mail; a missing
      reference becomes 0 and every other missing field is stored as null. `now` is GETDATE(). */
  function DiscussionPost(users: seq<Accounts.User>, t: DiscussionTable, viewer: string, body: PostBody, now: int)
    : (r: (DiscussionTable, PostOutcome))
    ensures r.1 == Posted <==> Accounts.Holds(users, Accounts.Email(viewer))
    ensures r.1 == UserNotFound ==> r.0 == t
    ensures r.1 == Posted ==>
              && r.0.nextId == t.nextId + 1 && |r.0.rows| == |t.rows| + 1 && r.0.rows[..|t.rows|] == t.rows
              && var row := r.0.rows[|t.rows|];
              && var poster := users[Accounts.Lookup(users, Accounts.Email(viewer)).value];
              && row.userId == poster.userId && row.authAdd == poster.name
              && row.discussionId == t.nextId && row.addOnDt == now && row.delStatus == Some(0) && Live(row)
              && (body.reference.None? ==> row.reference == 0)
              && (body.reference.Some? ==> row.reference == body.reference.value)
              && row.title == body.title && row.content == body.content && row.image == body.image
              && row.likes == body.likes && row.comment == body.comment && row.tag == body.tags
              && row.resourceUrl == body.url && row.visibility == body.visibility
  {
    match Accounts.Lookup(users, Accounts.Email(viewer))
    case None => (t, UserNotFound)
    case Some(i) =>
      var poster := users[i];
      var row := Row(t.nextId, poster.userId, body.title, body.content, body.image, body.likes, body.comment,
                     body.tags, body.visibility, body.reference.GetOr(0), body.url, poster.name, now, Some(0));
      assert (t.rows + [row])[..|t.rows|] == t.rows;
      (DiscussionTable(t.rows + [row], t.nextId + 1), Posted)
  }
}

=== FILE: forgot_password.dfy ===
/**
 * The forgot-password page of the client: a two-step form. The first step takes an e-mail
 * or user name and, on submit, unlocks the second step; the second takes a new password
 * twice and, on submit, either flags a mismatch or clears the whole form back to step one.
 * Neither step talks to the server.
 */
module ForgotPassword {

  datatype Form = Form(
    emailOrUsername: string,
    newPassword: string,
    confirmPassword: string,
    passwordsMatch: bool,
    emailVerified: bool,
    showPassword: bool)

  /** The state the page mounts with. */
  const Initial: Form := Form("", "", "", true, false, false)

  /** `handleVerifyEmail`: step two becomes visible; nothing else changes. */
  function HandleVerifyEmail(f: Form): (g: Form)
    ensures g.emailVerified
    ensures g.(emailVerified := f.emailVerified) == f
  {
    f.(emailVerified := true)
  }

  /** `handleSubmit`: with different passwords only the mismatch flag is raised; with equal ones
      every field but the visibility toggle returns to its initial value. */
  function HandleSubmit(f: Form): (g: Form)
    ensures f.newPassword != f.confirmPassword ==> g == f.(passwordsMatch := false)
    ensures f.newPassword == f.confirmPassword ==> g == Initial.(showPassword := f.showPassword)
    ensures g.passwordsMatch <==> f.newPassword == f.confirmPassword
  {
    if f.newPassword != f.confirmPassword then f.(passwordsMatch := false)
    else Form("", "", "", true, false, f.showPassword)
  }

  /** The confirmation box's `onChange`: it stores the text and compares it with the CURRENT new
      password. */
  function EditConfirm(f: Form, text: string): (g: Form)
    ensures g.confirmPassword == text
    ensures g.passwordsMatch <==> text == f.newPassword
    ensures g.(confirmPassword := f.confirmPassword, passwordsMatch := f.passwordsMatch) == f
  {
    f.(confirmPassword := text, passwordsMatch := text == f.newPassword)
  }

  /** What the user can do on the page. */
  datatype Event =
    | TypeEmail(text: string)
    | TypeNewPassword(text: string)
    | TypeConfirm(text: string)
    | ToggleShow
    | SubmitEmail
    | SubmitReset

  /** The browser's `required` check: a form with an empty required input is not submitted. */
  predicate CanSubmitEmail(f: Form) {
    !f.emailVerified && f.emailOrUsername != ""
  }

  predicate CanSubmitReset(f: Form) {
    f.emailVerified && f.newPassword != "" && f.confirmPassword != ""
  }

  /** One event against the page. Only the visible step's inputs and button react; the other
      step's events are no-ops, as are submissions the `required` check blocks. Typing a new
      password does not touch the mismatch flag. */
  function Dispatch(f: Form, e: Event): (g: Form)
    ensures g.showPassword == (if e == ToggleShow && f.emailVerified then !f.showPassword else f.showPassword)
    ensures f.emailVerified && e.TypeNewPassword? ==> g == f.(newPassword := e.text)
    ensures e.SubmitEmail? ==> g.emailVerified == (f.emailVerified || CanSubmitEmail(f))
    ensures e.SubmitReset? && CanSubmitReset(f) ==> g == HandleSubmit(f)
    ensures e.SubmitReset? && !CanSubmitReset(f) ==> g == f
    ensures g.emailVerified != f.emailVerified ==> e == SubmitEmail || e == SubmitReset
    ensures !f.emailVerified && (e.TypeNewPassword? || e.TypeConfirm? || e.ToggleShow?) ==> g == f
    ensures f.emailVerified && (e.TypeEmail? || e.SubmitEmail?) ==> g == f
    ensures !f.emailVerified && e.TypeEmail? ==> g == f.(emailOrUsername := e.text)
    ensures f.emailVerified && e.TypeConfirm? ==> g == EditConfirm(f, e.text)
    ensures e.SubmitEmail? && CanSubmitEmail(f) ==> g == HandleVerifyEmail(f)
    ensures e.SubmitEmail? && !CanSubmitEmail(f) ==> g == f
    ensures e.ToggleShow? && f.emailVerified ==> g == f.(showPassword := !f.showPassword)
  {
    match e
    case TypeEmail(text) => if !f.emailVerified then f.(emailOrUsername := text) else f
    case TypeNewPassword(text) => if f.emailVerified then f.(newPassword := text) else f
    case TypeConfirm(text) => if f.emailVerified then EditConfirm(f, text) else f
    case ToggleShow => if f.emailVerified then f.(showPassword := !f.showPassword) else f
    case SubmitEmail => if CanSubmitEmail(f) then HandleVerifyEmail(f) else f
    case SubmitReset => if CanSubmitReset(f) then HandleSubmit(f) else f
  }

  /** While step one is shown the mismatch warning is off and both password boxes are empty. */
  ghost predicate StepOneClean(f: Form) {
    !f.emailVerified ==> f.passwordsMatch && f.newPassword == "" && f.confirmPassword == ""
  }

  lemma DispatchKeepsStepOneClean(f: Form, e: Event)
    requires StepOneClean(f)
    ensures StepOneClean(Dispatch(f, e))
  {
  }

  function Run(f: Form, events: seq<Event>): Form {
    if events == [] then f else Dispatch(Run(f, events[..|events| - 1]), events[|events| - 1])
  }

  /** On every reachable page the mismatch warning implies step two is shown. */
  lemma {:induction false} ReachableStepOneClean(events: seq<Event>)
    ensures StepOneClean(Run(Initial, events))
    ensures !Run(Initial, events).passwordsMatch ==> Run(Initial, events).emailVerified
  {
    if events != [] {
      ReachableStepOneClean(events[..|events| - 1]);
      DispatchKeepsStepOneClean(Run(Initial, events[..|events| - 1]), events[|events| - 1]);
    }
  }

  /** The warning can be stale: after a mismatch is flagged, fixing the FIRST box leaves it on
      until the confirmation box is edited or the form is submitted. */
  lemma StaleMismatch()
    ensures var f := Run(Initial, [TypeEmail("a"), SubmitEmail, TypeNewPassword("x"), TypeConfirm("y"),
                                   TypeNewPassword("y")]);
            f.newPassword == f.confirmPassword && !f.passwordsMatch
  {
    var events := [TypeEmail("a"), SubmitEmail, TypeNewPassword("x"), TypeConfirm("y"), TypeNewPassword("y")];
    assert Run(Initial, events[..1]) == Initial.(emailOrUsername := "a");
    assert Run(Initial, events[..2]) == Initial.(emailOrUsername := "a", emailVerified := true);
    assert events[..3][..2] == events[..2] && events[..4][..3] == events[..3] && events[..5][..4] == events[..4];
    assert events[..2][..1] == events[..1];
    assert Run(Initial, events[..3]) == Initial.(emailOrUsername := "a", emailVerified := true, newPassword := "x");
    assert Run(Initial, events[..4])
        == Initial.(emailOrUsername := "a", emailVerified := true, newPassword := "x", confirmPassword := "y",
                    passwordsMatch := false);
    assert events[..5] == events;
  }
}

=== FILE: js_text.dfy ===
/**
 * The pieces of ECMAScript string semantics the client code relies on:
 * the whitespace class used by the regular-expression escape `\s` and by
 * `String.prototype.trim` (WhiteSpace plus LineTerminator, section 22.2.2.9
 * and section 22.1.3.32 of ECMA-262).
 */
module JsText {

  /** WhiteSpace (TAB, VT, FF, SP, NBSP, ZWNBSP, the Zs category) or LineTerminator (LF, CR, LS, PS). */
  predicate IsJsWhitespace(c: char) {
    || c == '\t' || c == '\n' || c == '\U{000B}' || c == '\U{000C}' || c == '\r'
    || c == ' ' || c == '\U{00A0}' || c == '\U{1680}'
    || ('\U{2000}' <= c <= '\U{200A}')
    || c == '\U{2028}' || c == '\U{2029}' || c == '\U{202F}' || c == '\U{205F}'
    || c == '\U{3000}' || c == '\U{FEFF}'
  }

  predicate AllWhitespace(s: string) {
    forall k :: 0 <= k < |s| ==> IsJsWhitespace(s[k])
  }

  /** Where `s.trimStart()` starts: the index of the first non-whitespace character, or `|s|`. */
  function TrimStartIndex(s: string): (n: nat)
    ensures n <= |s| && AllWhitespace(s[..n])
    ensures n < |s| ==> !IsJsWhitespace(s[n])
  {
    if s == [] || !IsJsWhitespace(s[0]) then 0
    else
      var m := TrimStartIndex(s[1..]);
      assert s[..m + 1] == [s[0]] + s[1..][..m];
      m + 1
  }

  /** Where `s.trimEnd()` ends: one past the last non-whitespace character, or 0. */
  function TrimEndIndex(s: string): (n: nat)
    ensures n <= |s| && AllWhitespace(s[n..])
    ensures n > 0 ==> !IsJsWhitespace(s[n - 1])
  {
    if s == [] || !IsJsWhitespace(s[|s| - 1]) then |s|
    else
      var m := TrimEndIndex(s[..|s| - 1]);
      assert s[m..] == s[..|s| - 1][m..] + [s[|s| - 1]];
      m
  }

  /** `r` is `s` with whitespace, and only whitespace, cut off at both ends. */
  ghost predicate IsTrimOf(s: string, r: string) {
    && (exists i, j :: 0 <= i <= j <= |s| && r == s[i..j] && AllWhitespace(s[..i]) && AllWhitespace(s[j..]))
    && (r != [] ==> !IsJsWhitespace(r[0]) && !IsJsWhitespace(r[|r| - 1]))
  }

  /** `s.trim()`. */
  function Trim(s: string): (r: string)
    ensures IsTrimOf(s, r)
  {
    var i := TrimStartIndex(s);
    var j := TrimEndIndex(s);
    if i == |s| then
      assert IsTrimOf(s, []) by { assert [] == s[i..i] && s[i..] == []; }
      []
    else
      assert IsTrimOf(s, s[i..j]);
      s[i..j]
  }

  /** A string is blank after trimming exactly when every character of it is whitespace. */
  lemma TrimEmptyIffBlank(s: string)
    ensures Trim(s) == "" <==> AllWhitespace(s)
  {
    var i := TrimStartIndex(s);
    if i == |s| {
      assert s[..i] == s;
    }
  }
}

=== FILE: thread_aggregator.dfy ===
/**
 * `getdiscussion`: turn the flat discussion table into threads, each with its
 * comments, each comment with a reply list, every node annotated with its like
 * count and whether the viewer liked it.
 *
 * As in the source, the reply accumulator is created once per thread, not once per
 * comment, and every comment object of a thread holds that one array; once the
 * response is serialised every comment therefore shows the replies of ALL comments
 * of its thread, comment after comment.
 */
module ThreadAggregator {
  import opened Wrappers
  import Accounts
  import opened DiscussionStore

  /** The WHERE clauses of the aggregation, each also requiring `ISNULL(delStatus, 0) = 0`. */
  datatype Query = RootQuery | LikeQuery(target: int) | CommentQuery(parent: int)

  predicate Selects(q: Query, r: Row) {
    && Live(r)
    && match q
       case RootQuery => r.visibility == Some("public") && r.reference == 0
       case LikeQuery(id) => r.likes.Some? && r.likes.value > 0 && r.reference == id
       case CommentQuery(id) => r.comment.Some? && r.reference == id
  }

  /** Reference definition of a query's result size: the positions of the table it selects. */
  ghost function Positions(rows: seq<Row>, q: Query, from: nat): set<nat> {
    set i: nat | from <= i < |rows| && Selects(q, rows[i])
  }

  function SelectFrom(rows: seq<Row>, q: Query, from: nat): (r: seq<Row>)
    requires from <= |rows|
    decreases |rows| - from
    ensures forall x :: x in r <==> x in rows[from..] && Selects(q, x)
  {
    if from == |rows| then []
    else if Selects(q, rows[from]) then [rows[from]] + SelectFrom(rows, q, from + 1)
    else SelectFrom(rows, q, from + 1)
  }

  lemma {:induction false} SelectFromCounts(rows: seq<Row>, q: Query, from: nat)
    requires from <= |rows|
    decreases |rows| - from
    ensures |SelectFrom(rows, q, from)| == |Positions(rows, q, from)|
  {
    if from == |rows| {
      assert Positions(rows, q, from) == {};
    } else {
      SelectFromCounts(rows, q, from + 1);
      PositionsStep(rows, q, from);
    }
  }

  /** Moving the start one row on drops at most the start position. */
  lemma PositionsStep(rows: seq<Row>, q: Query, from: nat)
    requires from < |rows|
    ensures |Positions(rows, q, from)| == |Positions(rows, q, from + 1)| + (if Selects(q, rows[from]) then 1 else 0)
  {
    var here := Positions(rows, q, from);
    var later := Positions(rows, q, from + 1);
    assert from !in later;
    if Selects(q, rows[from]) {
      assert here == later + {from};
    } else {
      PositionsSkip(rows, q, from);
    }
  }

  lemma PositionsSkip(rows: seq<Row>, q: Query, from: nat)
    requires from < |rows| && !Selects(q, rows[from])
    ensures Positions(rows, q, from) == Positions(rows, q, from + 1)
  {
  }

  /** A query's result in table order: exactly the selected rows, one entry per selected position. */
  function Select(rows: seq<Row>, q: Query): (r: seq<Row>)
    ensures forall x :: x in r <==> x in rows && Selects(q, x)
    ensures |r| == |Positions(rows, q, 0)|
  {
    SelectFromCounts(rows, q, 0);
    assert rows[0..] == rows;
    SelectFrom(rows, q, 0)
  }

  /** Reference definition of a row's multiplicity in a query's result: the positions of the
      table that hold exactly that row and are selected. */
  ghost function PositionsOf(rows: seq<Row>, q: Query, x: Row, from: nat): set<nat> {
    set i: nat | from <= i < |rows| && Selects(q, rows[i]) && rows[i] == x
  }

  lemma {:induction false} SelectFromMultiplicity(rows: seq<Row>, q: Query, x: Row, from: nat)
    requires from <= |rows|
    decreases |rows| - from
    ensures multiset(SelectFrom(rows, q, from))[x] == |PositionsOf(rows, q, x, from)|
  {
    if from == |rows| {
      assert PositionsOf(rows, q, x, from) == {};
    } else {
      SelectFromMultiplicity(rows, q, x, from + 1);
      PositionsOfStep(rows, q, x, from);
      var rest := SelectFrom(rows, q, from + 1);
      if Selects(q, rows[from]) {
        assert SelectFrom(rows, q, from) == [rows[from]] + rest;
        assert multiset([rows[from]] + rest) == multiset{rows[from]} + multiset(rest);
      } else {
        assert SelectFrom(rows, q, from) == rest;
      }
    }
  }

  lemma PositionsOfStep(rows: seq<Row>, q: Query, x: Row, from: nat)
    requires from < |rows|
    ensures |PositionsOf(rows, q, x, from)|
            == |PositionsOf(rows, q, x, from + 1)| + (if Selects(q, rows[from]) && rows[from] == x then 1 else 0)
  {
    var later := PositionsOf(rows, q, x, from + 1);
    assert from !in later;
    if Selects(q, rows[from]) && rows[from] == x {
      assert PositionsOf(rows, q, x, from) == later + {from};
    } else {
      PositionsOfSkip(rows, q, x, from);
    }
  }

  lemma PositionsOfSkip(rows: seq<Row>, q: Query, x: Row, from: nat)
    requires from < |rows| && !(Selects(q, rows[from]) && rows[from] == x)
    ensures PositionsOf(rows, q, x, from) == PositionsOf(rows, q, x, from + 1)
  {
  }

  /** Each row appears in a query's result once per selected position that holds it: a table
      with the same row twice yields it twice, and no row is repeated otherwise. */
  lemma SelectMultiplicity(rows: seq<Row>, q: Query, x: Row)
    ensures multiset(Select(rows, q))[x] == |PositionsOf(rows, q, x, 0)|
  {
    SelectFromMultiplicity(rows, q, x, 0);
  }

  ghost predicate NewestFirst(s: seq<Row>) {
    forall i, j :: 0 <= i < j < |s| ==> s[i].addOnDt >= s[j].addOnDt
  }

  /** Insert before the first row that is not newer, so earlier input stays first among equal dates. */
  function InsertByDate(x: Row, s: seq<Row>): (r: seq<Row>)
    requires NewestFirst(s)
    ensures NewestFirst(r)
    ensures multiset(r) == multiset(s) + multiset{x}
    ensures forall y :: y in r ==> y == x || y in s
  {
    if s == [] || s[0].addOnDt <= x.addOnDt then
      [x] + s
    else
      var rest := InsertByDate(x, s[1..]);
      HeadIsNewest(x, s, rest);
      assert [s[0]] + s[1..] == s;
      [s[0]] + rest
  }

  /** The head of a newest-first list stays first when an older row goes into its tail. */
  lemma HeadIsNewest(x: Row, s: seq<Row>, rest: seq<Row>)
    requires NewestFirst(s) && s != [] && x.addOnDt < s[0].addOnDt && NewestFirst(rest)
    requires forall y :: y in rest ==> y == x || y in s[1..]
    ensures NewestFirst([s[0]] + rest)
  {
    var r := [s[0]] + rest;
    forall j | 0 <= j < |rest| ensures rest[j].addOnDt <= s[0].addOnDt {
      assert rest[j] in rest;
      if rest[j] != x {
        var k :| 0 <= k < |s[1..]| && s[1..][k] == rest[j];
        assert s[k + 1] == rest[j];
      }
    }
    forall i, j | 0 <= i < j < |r| ensures r[i].addOnDt >= r[j].addOnDt {
      if i > 0 { assert r[i] == rest[i - 1] && r[j] == rest[j - 1]; }
    }
  }

  /** `ORDER BY AddOnDt DESC`; rows with equal dates keep their table order. */
  function SortNewestFirst(s: seq<Row>): (r: seq<Row>)
    ensures NewestFirst(r)
    ensures multiset(r) == multiset(s)
  {
    if s == [] then []
    else
      assert s == [s[0]] + s[1..];
      InsertByDate(s[0], SortNewestFirst(s[1..]))
  }

  datatype ReplyNode = ReplyNode(
    discussionId: int, userId: int, comment: Option<string>, userName: string,
    likeCount: nat, userLike: int)

  datatype CommentNode = CommentNode(
    discussionId: int, userId: int, comment: Option<string>, userName: string,
    likeCount: nat, userLike: int, replies: seq<ReplyNode>)

  datatype ThreadNode = ThreadNode(
    discussionId: int, userId: int, userName: string, title: Option<string>, content: Option<string>,
    image: Option<string>, tag: Option<string>, resourceUrl: Option<string>, date: int,
    likeCount: nat, userLike: int, comments: seq<CommentNode>)

  /** The response: `UnknownViewer` is `success: false` with no `updatedDiscussions`. */
  datatype Feed = UnknownViewer | Feed(threads: seq<ThreadNode>)

  /** `likeCount`: the number of live like rows pointing at the node (rows, not distinct users). */
  function LikeCount(rows: seq<Row>, id: int): (n: nat)
    ensures n == |Positions(rows, LikeQuery(id), 0)|
  {
    |Select(rows, LikeQuery(id))|
  }

  /** `userLike`: 1 when one of the node's like rows was written by the viewer, else 0. */
  function UserLike(rows: seq<Row>, id: int, viewerId: int): (b: int)
    ensures b == 0 || b == 1
    ensures b == 1 <==> exists x :: x in rows && Selects(LikeQuery(id), x) && x.userId == viewerId
  {
    var likes := Select(rows, LikeQuery(id));
    if exists x :: x in likes && x.userId == viewerId then 1 else 0
  }

  /** A reply object: the reply row's columns, with its own like count and the viewer's like. */
  function ReplyNodeOf(rows: seq<Row>, viewerId: int, g: Row): (n: ReplyNode)
    ensures n.discussionId == g.discussionId && n.userId == g.userId && n.comment == g.comment
    ensures n.userName == g.authAdd
    ensures n.likeCount == |Positions(rows, LikeQuery(g.discussionId), 0)|
    ensures n.userLike == 1 <==>
              exists x :: x in rows && Selects(LikeQuery(g.discussionId), x) && x.userId == viewerId
    ensures n.userLike == 0 || n.userLike == 1
  {
    ReplyNode(g.discussionId, g.userId, g.comment, g.authAdd, LikeCount(rows, g.discussionId),
              UserLike(rows, g.discussionId, viewerId))
  }

  function ReplyNodes(rows: seq<Row>, viewerId: int, replies: seq<Row>): (r: seq<ReplyNode>)
    ensures |r| == |replies|
    ensures forall k :: 0 <= k < |r| ==> r[k] == ReplyNodeOf(rows, viewerId, replies[k])
    ensures forall g :: g in replies ==> ReplyNodeOf(rows, viewerId, g) in r
    ensures forall n :: n in r ==> exists g :: g in replies && n == ReplyNodeOf(rows, viewerId, g)
  {
    var r := seq(|replies|, k requires 0 <= k < |replies| => ReplyNodeOf(rows, viewerId, replies[k]));
    ReplyNodesCover(rows, viewerId, replies, r);
    r
  }

  lemma ReplyNodesCover(rows: seq<Row>, viewerId: int, replies: seq<Row>, r: seq<ReplyNode>)
    requires |r| == |replies|
    requires forall k :: 0 <= k < |r| ==> r[k] == ReplyNodeOf(rows, viewerId, replies[k])
    ensures forall g :: g in replies ==> ReplyNodeOf(rows, viewerId, g) in r
    ensures forall n :: n in r ==> exists g :: g in replies && n == ReplyNodeOf(rows, viewerId, g)
  {
    forall g | g in replies ensures ReplyNodeOf(rows, viewerId, g) in r {
      var k :| 0 <= k < |replies| && replies[k] == g;
      assert r[k] == ReplyNodeOf(rows, viewerId, g);
    }
    forall n | n in r ensures exists g :: g in replies && n == ReplyNodeOf(rows, viewerId, g) {
      var k :| 0 <= k < |r| && r[k] == n;
      assert replies[k] in replies;
    }
  }

  /** The reply rows of comment `c`, as reply objects. */
  function RepliesTo(rows: seq<Row>, viewerId: int, c: Row): (r: seq<ReplyNode>)
    ensures |r| == |Positions(rows, CommentQuery(c.discussionId), 0)|
    ensures forall g :: g in rows && Selects(CommentQuery(c.discussionId), g) ==> ReplyNodeOf(rows, viewerId, g) in r
    ensures forall n :: n in r ==>
              exists g :: g in rows && Selects(CommentQuery(c.discussionId), g) && n == ReplyNodeOf(rows, viewerId, g)
  {
    ReplyNodes(rows, viewerId, Select(rows, CommentQuery(c.discussionId)))
  }

  /** Reference definition of the accumulator's size: the live replies of each comment, summed. */
  ghost function ReplyTotal(rows: seq<Row>, comments: seq<Row>): nat {
    if comments == [] then 0
    else |Positions(rows, CommentQuery(comments[0].discussionId), 0)| + ReplyTotal(rows, comments[1..])
  }

  /** The thread-wide reply accumulator: the replies of each comment, comment after comment.
      Every node in it is a live reply to one of `comments`, every such reply is in it, and it
      holds one node per reply row of each comment, a comment listed twice contributing twice. */
  function SharedReplies(rows: seq<Row>, viewerId: int, comments: seq<Row>): (r: seq<ReplyNode>)
    ensures |r| == ReplyTotal(rows, comments)
    ensures forall n :: n in r ==>
              exists c, g :: c in comments && g in rows && Selects(CommentQuery(c.discussionId), g)
                             && n == ReplyNodeOf(rows, viewerId, g)
    ensures forall c, g :: c in comments && g in rows && Selects(CommentQuery(c.discussionId), g)
              ==> ReplyNodeOf(rows, viewerId, g) in r
  {
    if comments == [] then []
    else
      var c := comments[0];
      var mine := RepliesTo(rows, viewerId, c);
      var rest := SharedReplies(rows, viewerId, comments[1..]);
      assert comments == [c] + comments[1..];
      mine + rest
  }

  /** The accumulator is built comment after comment: the list for `a + b` is the list for `a`
      followed by the list for `b`. */
  lemma {:induction false} SharedRepliesConcat(rows: seq<Row>, viewerId: int, a: seq<Row>, b: seq<Row>)
    ensures SharedReplies(rows, viewerId, a + b) == SharedReplies(rows, viewerId, a) + SharedReplies(rows, viewerId, b)
  {
    if a == [] {
      assert a + b == b;
    } else {
      assert (a + b)[1..] == a[1..] + b;
      SharedRepliesConcat(rows, viewerId, a[1..], b);
    }
  }

  /** The part one comment contributes is exactly its own replies, in table order. */
  lemma SharedRepliesSingle(rows: seq<Row>, viewerId: int, c: Row)
    ensures SharedReplies(rows, viewerId, [c]) == RepliesTo(rows, viewerId, c)
  {
    assert [c][1..] == [];
  }

  /** The replies of comment `j` sit after those of the comments before it and before those of
      the comments after it. */
  lemma SharedRepliesAt(rows: seq<Row>, viewerId: int, cs: seq<Row>, j: nat)
    ensures j < |cs| ==>
              SharedReplies(rows, viewerId, cs)
                == SharedReplies(rows, viewerId, cs[..j]) + RepliesTo(rows, viewerId, cs[j])
                   + SharedReplies(rows, viewerId, cs[j + 1..])
  {
    if j < |cs| {
      assert cs == cs[..j] + ([cs[j]] + cs[j + 1..]);
      SharedRepliesConcat(rows, viewerId, cs[..j], [cs[j]] + cs[j + 1..]);
      SharedRepliesConcat(rows, viewerId, [cs[j]], cs[j + 1..]);
      SharedRepliesSingle(rows, viewerId, cs[j]);
    }
  }

  /** A comment object: the comment row's columns, its own like count and the viewer's like, and
      the reply list it is handed. */
  function CommentNodeOf(rows: seq<Row>, viewerId: int, c: Row, shared: seq<ReplyNode>): (n: CommentNode)
    ensures n.discussionId == c.discussionId && n.userId == c.userId && n.comment == c.comment
    ensures n.userName == c.authAdd
    ensures n.likeCount == |Positions(rows, LikeQuery(c.discussionId), 0)|
    ensures n.userLike == 1 <==>
              exists x :: x in rows && Selects(LikeQuery(c.discussionId), x) && x.userId == viewerId
    ensures n.userLike == 0 || n.userLike == 1
    ensures n.replies == shared
  {
    CommentNode(c.discussionId, c.userId, c.comment, c.authAdd, LikeCount(rows, c.discussionId),
                UserLike(rows, c.discussionId, viewerId), shared)
  }

  /** Some live comment row on `parent` has id `id`. */
  ghost predicate IsCommentOn(rows: seq<Row>, parent: int, id: int) {
    exists c :: c in rows && Selects(CommentQuery(parent), c) && c.discussionId == id
  }

  /** The comment objects of one thread, in table order, all holding `shared`. */
  function CommentNodes(rows: seq<Row>, viewerId: int, cs: seq<Row>, shared: seq<ReplyNode>): (r: seq<CommentNode>)
    ensures |r| == |cs|
    ensures forall k :: 0 <= k < |r| ==> r[k] == CommentNodeOf(rows, viewerId, cs[k], shared)
  {
    seq(|cs|, k requires 0 <= k < |cs| => CommentNodeOf(rows, viewerId, cs[k], shared))
  }

  /** One thread object: the root's columns, its like annotations, and its comments. */
  function ThreadOf(rows: seq<Row>, viewerId: int, root: Row): (n: ThreadNode)
    ensures n.discussionId == root.discussionId && n.date == root.addOnDt
    ensures && n.userId == root.userId && n.userName == root.authAdd && n.title == root.title
            && n.content == root.content && n.image == root.image && n.tag == root.tag
            && n.resourceUrl == root.resourceUrl
    ensures n.likeCount == |Positions(rows, LikeQuery(root.discussionId), 0)|
    ensures n.userLike == 1 <==>
              exists x :: x in rows && Selects(LikeQuery(root.discussionId), x) && x.userId == viewerId
    ensures |n.comments| == |Positions(rows, CommentQuery(root.discussionId), 0)|
  {
    ThreadNode(root.discussionId, root.userId, root.authAdd, root.title, root.content, root.image,
               root.tag, root.resourceUrl, root.addOnDt, LikeCount(rows, root.discussionId),
               UserLike(rows, root.discussionId, viewerId), ThreadComments(rows, viewerId, root.discussionId))
  }

  /** The comment objects of thread `id`, all holding the thread-wide reply list. */
  function ThreadComments(rows: seq<Row>, viewerId: int, id: int): seq<CommentNode> {
    var cs := Select(rows, CommentQuery(id));
    CommentNodes(rows, viewerId, cs, SharedReplies(rows, viewerId, cs))
  }

  /** What a thread object holds: its like count and the viewer's like, exactly the live comments
      on the root, and on every comment the same thread-wide reply list. */
  lemma ThreadContents(rows: seq<Row>, viewerId: int, root: Row)
    ensures var n := ThreadOf(rows, viewerId, root);
            && n.likeCount == |Positions(rows, LikeQuery(root.discussionId), 0)|
            && (n.userLike == 1 <==>
                  exists x :: x in rows && Selects(LikeQuery(root.discussionId), x) && x.userId == viewerId)
            && |n.comments| == |Positions(rows, CommentQuery(root.discussionId), 0)|
            && (forall k :: 0 <= k < |n.comments| ==> IsCommentOn(rows, root.discussionId, n.comments[k].discussionId))
            && (forall c :: c in rows && Selects(CommentQuery(root.discussionId), c) ==>
                  exists k :: 0 <= k < |n.comments| && n.comments[k].discussionId == c.discussionId)
            && (forall k :: 0 <= k < |n.comments| ==> n.comments[k].replies == n.comments[0].replies)
  {
    var cs := Select(rows, CommentQuery(root.discussionId));
    var shared := SharedReplies(rows, viewerId, cs);
    var comments := CommentNodes(rows, viewerId, cs, shared);
    assert ThreadOf(rows, viewerId, root).comments == ThreadComments(rows, viewerId, root.discussionId) == comments;
    assert forall k :: 0 <= k < |comments| ==> comments[k].replies == shared;
    CommentsCover(rows, root.discussionId, cs, comments);
  }

  /** Each comment object of a thread is the object of a live comment row on the root, in table
      order: that row's columns, its own like count and the viewer's like on it. */
  lemma ThreadCommentObjects(rows: seq<Row>, viewerId: int, root: Row)
    ensures var n := ThreadOf(rows, viewerId, root);
            var cs := Select(rows, CommentQuery(root.discussionId));
            && |n.comments| == |cs|
            && (forall k :: 0 <= k < |n.comments| ==>
                  n.comments[k] == CommentNodeOf(rows, viewerId, cs[k], n.comments[k].replies))
            && (forall k :: 0 <= k < |n.comments| ==>
                  exists c :: c in rows && Selects(CommentQuery(root.discussionId), c)
                              && n.comments[k] == CommentNodeOf(rows, viewerId, c, n.comments[k].replies))
  {
    var cs := Select(rows, CommentQuery(root.discussionId));
    var comments := ThreadOf(rows, viewerId, root).comments;
    assert comments == CommentNodes(rows, viewerId, cs, SharedReplies(rows, viewerId, cs));
    forall k | 0 <= k < |comments|
      ensures exists c :: c in rows && Selects(CommentQuery(root.discussionId), c)
                          && comments[k] == CommentNodeOf(rows, viewerId, c, comments[k].replies)
    {
      assert cs[k] in cs;
    }
  }

  /** Every reply object in a thread is a live reply to one of the thread's live comments, every
      such reply appears in the list each comment carries, and that list holds one node per reply
      row of each comment. */
  lemma ThreadReplies(rows: seq<Row>, viewerId: int, root: Row, k: nat)
    ensures var comments := ThreadOf(rows, viewerId, root).comments;
            k < |comments| ==>
            var replies := comments[k].replies;
            && |replies| == ReplyTotal(rows, Select(rows, CommentQuery(root.discussionId)))
            && (forall n :: n in replies ==>
                  exists c, g :: c in rows && Selects(CommentQuery(root.discussionId), c)
                                 && g in rows && Selects(CommentQuery(c.discussionId), g)
                                 && n == ReplyNodeOf(rows, viewerId, g))
            && (forall c, g :: c in rows && Selects(CommentQuery(root.discussionId), c)
                                 && g in rows && Selects(CommentQuery(c.discussionId), g)
                  ==> ReplyNodeOf(rows, viewerId, g) in replies)
            && var cs := Select(rows, CommentQuery(root.discussionId));
               forall j :: 0 <= j < |cs| ==>
                 replies == SharedReplies(rows, viewerId, cs[..j]) + RepliesTo(rows, viewerId, cs[j])
                            + SharedReplies(rows, viewerId, cs[j + 1..])
  {
    var cs := Select(rows, CommentQuery(root.discussionId));
    var shared := SharedReplies(rows, viewerId, cs);
    var comments := ThreadOf(rows, viewerId, root).comments;
    assert comments == ThreadComments(rows, viewerId, root.discussionId);
    if k < |comments| {
      assert comments[k].replies == shared;
      forall j | 0 <= j < |cs|
        ensures shared == SharedReplies(rows, viewerId, cs[..j]) + RepliesTo(rows, viewerId, cs[j])
                          + SharedReplies(rows, viewerId, cs[j + 1..])
      {
        SharedRepliesAt(rows, viewerId, cs, j);
      }
    }
  }

  lemma CommentsCover(rows: seq<Row>, id: int, cs: seq<Row>, comments: seq<CommentNode>)
    requires cs == Select(rows, CommentQuery(id))
    requires |comments| == |cs|
    requires forall k :: 0 <= k < |cs| ==> comments[k].discussionId == cs[k].discussionId
    ensures forall k :: 0 <= k < |comments| ==> IsCommentOn(rows, id, comments[k].discussionId)
    ensures forall c :: c in rows && Selects(CommentQuery(id), c) ==>
              exists k :: 0 <= k < |comments| && comments[k].discussionId == c.discussionId
  {
    forall k | 0 <= k < |comments|
      ensures IsCommentOn(rows, id, comments[k].discussionId)
    {
      assert cs[k] in cs;
    }
    forall c | c in rows && Selects(CommentQuery(id), c)
      ensures exists k :: 0 <= k < |comments| && comments[k].discussionId == c.discussionId
    {
      assert c in cs;
      var k :| 0 <= k < |cs| && cs[k] == c;
      assert comments[k].discussionId == c.discussionId;
    }
  }

  /** `node` is the thread object the viewer `viewerId` gets for some public live root row. */
  ghost predicate RendersRoot(rows: seq<Row>, viewerId: int, node: ThreadNode) {
    exists x :: x in rows && Selects(RootQuery, x) && node == ThreadOf(rows, viewerId, x)
  }

  /** The public roots in display order: a newest-first permutation of the selected rows. */
  function Roots(rows: seq<Row>): (roots: seq<Row>)
    ensures |roots| == |Positions(rows, RootQuery, 0)|
    ensures NewestFirst(roots)
    ensures forall x :: x in roots <==> x in rows && Selects(RootQuery, x)
  {
    var selected := Select(rows, RootQuery);
    var roots := SortNewestFirst(selected);
    assert |roots| == |multiset(roots)| == |multiset(selected)| == |selected|;
    assert forall x :: x in roots <==> x in multiset(selected);
    roots
  }

  /** The threads one viewer sees: one per public live root row, newest first. */
  function ThreadsFor(rows: seq<Row>, viewerId: int): (ts: seq<ThreadNode>)
    ensures |ts| == |Positions(rows, RootQuery, 0)|
    ensures forall i, j :: 0 <= i < j < |ts| ==> ts[i].date >= ts[j].date
  {
    var roots := Roots(rows);
    var threads := ThreadList(rows, viewerId, roots);
    assert forall i, j :: 0 <= i < j < |threads| ==> threads[i].date >= threads[j].date by {
      forall i, j | 0 <= i < j < |threads| ensures threads[i].date >= threads[j].date {
        assert threads[i].date == roots[i].addOnDt && threads[j].date == roots[j].addOnDt;
      }
    }
    threads
  }

  /** `discussionsWithLikesCount.map(...)`: one thread object per root row, in order. */
  function ThreadList(rows: seq<Row>, viewerId: int, roots: seq<Row>): (ts: seq<ThreadNode>)
    ensures |ts| == |roots|
    ensures forall k :: 0 <= k < |ts| ==> ts[k] == ThreadOf(rows, viewerId, roots[k])
  {
    if roots == [] then [] else [ThreadOf(rows, viewerId, roots[0])] + ThreadList(rows, viewerId, roots[1..])
  }

  lemma ThreadsForPointwise(rows: seq<Row>, viewerId: int)
    ensures var ts := ThreadsFor(rows, viewerId);
            |ts| == |Roots(rows)| && forall k :: 0 <= k < |ts| ==> ts[k] == ThreadOf(rows, viewerId, Roots(rows)[k])
  {
  }

  /** Every thread shown renders a public live root. */
  lemma ThreadsAreRoots(rows: seq<Row>, viewerId: int)
    ensures var ts := ThreadsFor(rows, viewerId);
            forall k :: 0 <= k < |ts| ==> RendersRoot(rows, viewerId, ts[k])
  {
    var roots := Roots(rows);
    var ts := ThreadsFor(rows, viewerId);
    forall k | 0 <= k < |ts| ensures RendersRoot(rows, viewerId, ts[k]) {
      ThreadsForPointwise(rows, viewerId);
      assert roots[k] in roots;
    }
  }

  /** Every public live root is shown. */
  lemma RootsAreThreads(rows: seq<Row>, viewerId: int)
    ensures var ts := ThreadsFor(rows, viewerId);
            forall x :: x in rows && Selects(RootQuery, x) ==>
              exists k :: 0 <= k < |ts| && ts[k] == ThreadOf(rows, viewerId, x)
  {
    forall x | x in rows && Selects(RootQuery, x)
      ensures exists k :: 0 <= k < |ThreadsFor(rows, viewerId)| && ThreadsFor(rows, viewerId)[k] == ThreadOf(rows, viewerId, x)
    {
      RootIsShown(rows, viewerId, x);
    }
  }

  lemma RootIsShown(rows: seq<Row>, viewerId: int, x: Row)
    requires x in rows && Selects(RootQuery, x)
    ensures exists k :: 0 <= k < |ThreadsFor(rows, viewerId)| && ThreadsFor(rows, viewerId)[k] == ThreadOf(rows, viewerId, x)
  {
    var roots := Roots(rows);
    var k :| 0 <= k < |roots| && roots[k] == x;
    ThreadsForPointwise(rows, viewerId);
  }

  /** `getdiscussion` from the viewer's point of view (the viewer is the first live user with the
      token's e-mail): one thread per public live root row, newest first. */
  function GetDiscussion(users: seq<Accounts.User>, rows: seq<Row>, viewer: string): (f: Feed)
    ensures f.UnknownViewer? <==> !Accounts.Holds(users, Accounts.Email(viewer))
    ensures f.Feed? ==> |f.threads| == |Positions(rows, RootQuery, 0)|
    ensures f.Feed? ==> forall i, j :: 0 <= i < j < |f.threads| ==> f.threads[i].date >= f.threads[j].date
    ensures f.Feed? ==>
              var viewerId := users[Accounts.Lookup(users, Accounts.Email(viewer)).value].userId;
              && (forall k :: 0 <= k < |f.threads| ==> RendersRoot(rows, viewerId, f.threads[k]))
              && (forall x :: x in rows && Selects(RootQuery, x) ==>
                    exists k :: 0 <= k < |f.threads| && f.threads[k] == ThreadOf(rows, viewerId, x))
  {
    match Accounts.Lookup(users, Accounts.Email(viewer))
    case None => UnknownViewer
    case Some(v) =>
      ThreadsAreRoots(rows, users[v].userId);
      RootsAreThreads(rows, users[v].userId);
      Feed(ThreadsFor(rows, users[v].userId))
  }

  lemma PositionsAppend(rows: seq<Row>, x: Row, q: Query)
    ensures Positions(rows + [x], q, 0)
            == Positions(rows, q, 0) + (if Selects(q, x) then {|rows|} else {})
  {
    var big := rows + [x];
    forall i | i in Positions(big, q, 0)
      ensures i in Positions(rows, q, 0) + (if Selects(q, x) then {|rows|} else {})
    {
      if i < |rows| { assert big[i] == rows[i]; }
    }
    forall i | i in Positions(rows, q, 0) ensures i in Positions(big, q, 0) {
      assert big[i] == rows[i];
    }
  }

  /** A like posted through `discussionpost` (positive `likes`, `reference` the target) raises the
      target's like count by exactly one; any other post leaves every like count alone. */
  lemma PostedLikeCounts(users: seq<Accounts.User>, t: DiscussionTable, poster: string, body: PostBody, now: int,
                         target: int)
    requires DiscussionPost(users, t, poster, body, now).1 == Posted
    ensures var after := DiscussionPost(users, t, poster, body, now).0.rows;
            LikeCount(after, target)
            == LikeCount(t.rows, target)
               + (if body.likes.Some? && body.likes.value > 0 && body.reference.GetOr(0) == target then 1 else 0)
  {
    var after := DiscussionPost(users, t, poster, body, now).0.rows;
    var row := after[|t.rows|];
    assert after == t.rows + [row];
    PositionsAppend(t.rows, row, LikeQuery(target));
    assert |t.rows| !in Positions(t.rows, LikeQuery(target), 0);
  }

  /** A public thread posted through `discussionpost` shows up in every known viewer's feed. */
  lemma PostedThreadIsShown(users: seq<Accounts.User>, t: DiscussionTable, poster: string, body: PostBody, now: int,
                            viewer: string)
    requires DiscussionPost(users, t, poster, body, now).1 == Posted
    requires body.visibility == Some("public") && body.reference.GetOr(0) == 0
    requires Accounts.Holds(users, Accounts.Email(viewer))
    ensures var f := GetDiscussion(users, DiscussionPost(users, t, poster, body, now).0.rows, viewer);
            f.Feed? && exists k :: 0 <= k < |f.threads| && f.threads[k].discussionId == t.nextId
  {
    var after := DiscussionPost(users, t, poster, body, now).0.rows;
    var row := after[|t.rows|];
    assert row in after && Selects(RootQuery, row);
    var f := GetDiscussion(users, after, viewer);
    var viewerId := users[Accounts.Lookup(users, Accounts.Email(viewer)).value].userId;
    var k :| 0 <= k < |f.threads| && f.threads[k] == ThreadOf(after, viewerId, row);
  }

  /** A comment posted through `discussionpost` on a thread is listed among that thread's comments. */
  lemma PostedCommentIsListed(users: seq<Accounts.User>, t: DiscussionTable, poster: string, body: PostBody, now: int,
                              viewerId: int, root: Row)
    requires DiscussionPost(users, t, poster, body, now).1 == Posted
    requires body.comment.Some? && body.reference == Some(root.discussionId)
    ensures var n := ThreadOf(DiscussionPost(users, t, poster, body, now).0.rows, viewerId, root);
            exists k :: 0 <= k < |n.comments| && n.comments[k].discussionId == t.nextId
  {
    var after := DiscussionPost(users, t, poster, body, now).0.rows;
    var row := after[|t.rows|];
    assert row in after && Selects(CommentQuery(root.discussionId), row);
    ThreadContents(after, viewerId, root);
  }

  /** A small table showing the shared reply list: comment 3 is handed the reply to comment 2. */
  function SampleRoot(): Row {
    Row(1, 7, Some("t"), None, None, None, None, None, Some("public"), 0, None, "ann", 10, Some(0))
  }

  function SampleComment(id: int, text: string): Row {
    Row(id, 7, None, None, None, None, Some(text), None, None, 1, None, "ann", 11, Some(0))
  }

  function SampleReply(): Row {
    Row(4, 8, None, None, None, None, Some("g"), None, None, 2, None, "bob", 12, Some(0))
  }

  function SampleRows(): seq<Row> {
    [SampleRoot(), SampleComment(2, "a"), SampleComment(3, "b"), SampleReply()]
  }

  /** As written, the second comment of the sample thread carries a reply whose parent is the
      first comment. */
  lemma {:induction false} SharedReplyMisattributed(viewerId: int)
    ensures var n := ThreadOf(SampleRows(), viewerId, SampleRoot());
            && |n.comments| == 2 && n.comments[1].discussionId == 3
            && ReplyNodeOf(SampleRows(), viewerId, SampleReply()) in n.comments[1].replies
            && SampleReply().reference != n.comments[1].discussionId
  {
    var rows := SampleRows();
    SampleComments();
    ThreadReplies(rows, viewerId, SampleRoot(), 1);
    assert rows[1] in rows && Selects(CommentQuery(1), rows[1]);
    assert rows[3] in rows && Selects(CommentQuery(2), rows[3]);
  }

  /** The live comments on the sample root are its two comment rows, in table order. */
  lemma SampleComments()
    ensures Select(SampleRows(), CommentQuery(1)) == [SampleRows()[1], SampleRows()[2]]
  {
    var rows := SampleRows();
    assert SelectFrom(rows, CommentQuery(1), 4) == [];
    assert SelectFrom(rows, CommentQuery(1), 3) == [];
    assert SelectFrom(rows, CommentQuery(1), 2) == [rows[2]];
    assert SelectFrom(rows, CommentQuery(1), 1) == [rows[1], rows[2]];
    assert SelectFrom(rows, CommentQuery(1), 0) == [rows[1], rows[2]];
  }

  /** The thread object as evidently intended: each comment carries only its own replies. */
  function ThreadOfPerComment(rows: seq<Row>, viewerId: int, root: Row): (n: ThreadNode)
    ensures n.discussionId == root.discussionId && n.date == root.addOnDt
    ensures forall k :: 0 <= k < |n.comments| ==>
              && IsCommentOn(rows, root.discussionId, n.comments[k].discussionId)
              && (forall r :: r in n.comments[k].replies ==>
                    exists g :: g in rows && Selects(CommentQuery(n.comments[k].discussionId), g)
                                && r == ReplyNodeOf(rows, viewerId, g))
              && (forall g :: g in rows && Selects(CommentQuery(n.comments[k].discussionId), g) ==>
                    ReplyNodeOf(rows, viewerId, g) in n.comments[k].replies)
  {
    var cs := Select(rows, CommentQuery(root.discussionId));
    var comments := seq(|cs|, k requires 0 <= k < |cs| =>
                          CommentNodeOf(rows, viewerId, cs[k], RepliesTo(rows, viewerId, cs[k])));
    assert forall k :: 0 <= k < |cs| ==> cs[k] in cs;
    ThreadNode(root.discussionId, root.userId, root.authAdd, root.title, root.content, root.image,
               root.tag, root.resourceUrl, root.addOnDt, LikeCount(rows, root.discussionId),
               UserLike(rows, root.discussionId, viewerId), comments)
  }
}

=== FILE: verify_email.dfy ===
/**
 * The e-mail verification page of the client: the e-mail pattern check, the captcha
 * generator, and the order of the checks on submit.
 *
 * `Math.random()` is replaced by the draws it would produce: an index into each character
 * class, the indices of the extra characters, and the exchanges performed by the
 * random-comparator sort.
 */
module VerifyEmail {
  import JsText

  /** A character the class `[^\s@]` accepts. */
  predicate Plain(c: char) {
    !JsText.IsJsWhitespace(c) && c != '@'
  }

  /** A non-empty run of `[^\s@]`. */
  ghost predicate Segment(t: string) {
    |t| > 0 && forall k :: 0 <= k < |t| ==> Plain(t[k])
  }

  /** The language of `/^[^\s@]+@[^\s@]+\.[^\s@]+$/`: three segments joined by "@" and ".". */
  ghost predicate MatchesPattern(s: string) {
    exists a, b, c :: Segment(a) && Segment(b) && Segment(c) && s == a + "@" + b + "." + c
  }

  /** The same language read on positions: the '@' at `i`, a '.' at `j`, everything else plain. */
  ghost predicate MatchesAt(s: string, i: int, j: int) {
    && 0 < i && i + 1 < j && j + 1 < |s|
    && s[i] == '@' && s[j] == '.'
    && forall k :: 0 <= k < |s| && k != i ==> Plain(s[k])
  }

  lemma PatternAtPositions(s: string)
    ensures MatchesPattern(s) <==> exists i, j :: MatchesAt(s, i, j)
  {
    if MatchesPattern(s) {
      var a, b, c :| Segment(a) && Segment(b) && Segment(c) && s == a + "@" + b + "." + c;
      var i, j := |a|, |a| + 1 + |b|;
      forall k | 0 <= k < |s| && k != i ensures Plain(s[k]) {
        if k < i { assert s[k] == a[k]; }
        else if k < j { assert s[k] == b[k - i - 1]; }
        else if k > j { assert s[k] == c[k - j - 1]; }
      }
      assert MatchesAt(s, i, j);
    }
    if exists i, j :: MatchesAt(s, i, j) {
      var i, j :| MatchesAt(s, i, j);
      var a, b, c := s[..i], s[i + 1..j], s[j + 1..];
      assert forall k :: 0 <= k < |a| ==> a[k] == s[k];
      assert forall k :: 0 <= k < |b| ==> b[k] == s[k + i + 1];
      assert forall k :: 0 <= k < |c| ==> c[k] == s[k + j + 1];
      assert s == a + "@" + b + "." + c;
      assert Segment(a) && Segment(b) && Segment(c);
    }
  }

  /** The position of the first '@' at or after `from`, or `|s|` when there is none. */
  function FirstAt(s: string, from: nat): (i: nat)
    requires from <= |s|
    decreases |s| - from
    ensures from <= i <= |s|
    ensures i < |s| ==> s[i] == '@'
    ensures forall k :: from <= k < i ==> s[k] != '@'
  {
    if from == |s| || s[from] == '@' then from else FirstAt(s, from + 1)
  }

  /** `isValidEmail(email)`: no whitespace, exactly one '@' and not first, and a '.' in the part
      after it that is neither that part's first nor its last character. */
  function IsValidEmail(s: string): (b: bool)
    ensures b <==> MatchesPattern(s)
  {
    var i := FirstAt(s, 0);
    var r := && 0 < i < |s|
             && (forall k :: 0 <= k < |s| ==> !JsText.IsJsWhitespace(s[k]))
             && (forall k :: i < k < |s| ==> s[k] != '@')
             && (exists j :: i + 1 < j < |s| - 1 && s[j] == '.');
    PatternAtPositions(s);
    assert r ==> exists i', j' :: MatchesAt(s, i', j') by {
      if r {
        var j :| i + 1 < j < |s| - 1 && s[j] == '.';
        assert MatchesAt(s, i, j);
      }
    }
    assert forall i', j' :: MatchesAt(s, i', j') ==> r by {
      forall i', j' | MatchesAt(s, i', j') ensures r {
        WitnessIsFirstAt(s, i', j');
        assert s[j'] == '.';
      }
    }
    r
  }

  lemma WitnessIsFirstAt(s: string, i: int, j: int)
    requires MatchesAt(s, i, j)
    ensures FirstAt(s, 0) == i
  {
    var f := FirstAt(s, 0);
    assert s[i] == '@' && Plain(s[f]) == (f != i);
  }

  predicate IsLower(c: char) { 'a' <= c <= 'z' }
  predicate IsUpper(c: char) { 'A' <= c <= 'Z' }
  predicate IsDigit(c: char) { '0' <= c <= '9' }

  /** 'a' through 'z', 'A' through 'Z', '0' through '9', and the three in that order. */
  const Lower: string := seq(26, k requires 0 <= k < 26 => ('a' as int + k) as char)
  const Upper: string := seq(26, k requires 0 <= k < 26 => ('A' as int + k) as char)
  const Digits: string := seq(10, k requires 0 <= k < 10 => ('0' as int + k) as char)
  const Alphabet: string := Lower + Upper + Digits

  /** One exchange the sort performs, positions taken modulo the length. */
  function Exchange(s: string, i: nat, j: nat): (r: string)
    requires |s| > 0
    ensures |r| == |s| && multiset(r) == multiset(s)
  {
    var a, b := i % |s|, j % |s|;
    s[a := s[b]][b := s[a]]
  }

  /** `captcha.split('').sort(() => Math.random() - 0.5).join('')`: the sort, whatever its
      comparator answers, only moves characters; here as the exchanges it happened to make. */
  function Shuffle(s: string, exchanges: seq<(nat, nat)>): (r: string)
    ensures |r| == |s|
  {
    if exchanges == [] || |s| == 0 then s
    else
      var last := exchanges[|exchanges| - 1];
      Exchange(Shuffle(s, exchanges[..|exchanges| - 1]), last.0, last.1)
  }

  /** The shuffle is a permutation. */
  lemma {:induction false} ShuffleIsPermutation(s: string, exchanges: seq<(nat, nat)>)
    ensures multiset(Shuffle(s, exchanges)) == multiset(s)
  {
    if exchanges != [] && |s| != 0 {
      ShuffleIsPermutation(s, exchanges[..|exchanges| - 1]);
    }
  }

  /** The characters drawn before shuffling, in drawing order. */
  ghost function Drawn(lo: nat, up: nat, dg: nat, extra: seq<nat>, n: nat): string
    requires lo < |Lower| && up < |Upper| && dg < |Digits|
    requires n <= |extra| && forall k :: 0 <= k < |extra| ==> extra[k] < |Alphabet|
  {
    [Lower[lo], Upper[up], Digits[dg]] + seq(n, k requires 0 <= k < n => Alphabet[extra[k]])
  }

  lemma DrawnStep(lo: nat, up: nat, dg: nat, extra: seq<nat>, n: nat)
    requires lo < |Lower| && up < |Upper| && dg < |Digits|
    requires n < |extra| && forall k :: 0 <= k < |extra| ==> extra[k] < |Alphabet|
    ensures Drawn(lo, up, dg, extra, n + 1) == Drawn(lo, up, dg, extra, n) + [Alphabet[extra[n]]]
  {
    var a, b := Drawn(lo, up, dg, extra, n + 1), Drawn(lo, up, dg, extra, n) + [Alphabet[extra[n]]];
    assert |a| == |b|;
    forall k | 0 <= k < |a| ensures a[k] == b[k] {
      if k < 3 {
      } else if k < 3 + n {
      }
    }
  }

  /** `generateCaptcha(length)`: one lower-case letter, one upper-case letter, one digit, then
      `length - 3` characters from the whole alphabet (none when `length <= 3`), shuffled. */
  method GenerateCaptcha(length: int, lo: nat, up: nat, dg: nat, extra: seq<nat>, exchanges: seq<(nat, nat)>)
    returns (captcha: string)
    requires lo < |Lower| && up < |Upper| && dg < |Digits|
    requires |extra| >= length - 3 && forall k :: 0 <= k < |extra| ==> extra[k] < |Alphabet|
    ensures |captcha| == if length > 3 then length else 3
    ensures multiset(captcha) == multiset(Drawn(lo, up, dg, extra, |captcha| - 3))
  {
    captcha := [Lower[lo]] + [Upper[up]] + [Digits[dg]];
    var i := 0;
    while i < length - 3
      invariant 0 <= i <= |extra| && (if length > 3 then i <= length - 3 else i == 0)
      invariant captcha == Drawn(lo, up, dg, extra, i)
    {
      DrawnStep(lo, up, dg, extra, i);
      captcha := captcha + [Alphabet[extra[i]]];
      i := i + 1;
    }
    assert |captcha| == 3 + i;
    ShuffleIsPermutation(captcha, exchanges);
    captcha := Shuffle(captcha, exchanges);
  }

  /** Whatever the draws, a captcha has a lower-case letter, an upper-case letter and a digit, and
      only characters of the alphabet. */
  lemma CaptchaClasses(lo: nat, up: nat, dg: nat, extra: seq<nat>, n: nat, captcha: string)
    requires lo < |Lower| && up < |Upper| && dg < |Digits|
    requires n <= |extra| && forall k :: 0 <= k < |extra| ==> extra[k] < |Alphabet|
    requires multiset(captcha) == multiset(Drawn(lo, up, dg, extra, n))
    ensures exists k :: 0 <= k < |captcha| && IsLower(captcha[k])
    ensures exists k :: 0 <= k < |captcha| && IsUpper(captcha[k])
    ensures exists k :: 0 <= k < |captcha| && IsDigit(captcha[k])
    ensures forall k :: 0 <= k < |captcha| ==> IsLower(captcha[k]) || IsUpper(captcha[k]) || IsDigit(captcha[k])
  {
    var d := Drawn(lo, up, dg, extra, n);
    DrawnClasses(lo, up, dg, extra, n);
    InCaptcha(captcha, d[0]);
    InCaptcha(captcha, d[1]);
    InCaptcha(captcha, d[2]);
    forall k | 0 <= k < |captcha| ensures IsLower(captcha[k]) || IsUpper(captcha[k]) || IsDigit(captcha[k]) {
      assert captcha[k] in multiset(d);
    }
  }

  /** The drawn characters: a lower-case letter, an upper-case letter, a digit, then any of these. */
  lemma DrawnClasses(lo: nat, up: nat, dg: nat, extra: seq<nat>, n: nat)
    requires lo < |Lower| && up < |Upper| && dg < |Digits|
    requires n <= |extra| && forall k :: 0 <= k < |extra| ==> extra[k] < |Alphabet|
    ensures var d := Drawn(lo, up, dg, extra, n);
            && |d| == n + 3 && IsLower(d[0]) && IsUpper(d[1]) && IsDigit(d[2])
            && forall c :: c in d ==> IsLower(c) || IsUpper(c) || IsDigit(c)
  {
    var d := Drawn(lo, up, dg, extra, n);
    forall m | 0 <= m < |d| ensures IsLower(d[m]) || IsUpper(d[m]) || IsDigit(d[m]) {
      if m >= 3 {
        AlphabetClasses(extra[m - 3]);
      }
    }
  }

  lemma InCaptcha(captcha: string, c: char)
    requires c in multiset(captcha)
    ensures exists k :: 0 <= k < |captcha| && captcha[k] == c
  {
    assert c in captcha;
  }

  lemma AlphabetClasses(k: nat)
    requires k < |Alphabet|
    ensures IsLower(Alphabet[k]) || IsUpper(Alphabet[k]) || IsDigit(Alphabet[k])
  {
    if k < 26 { assert Alphabet[k] == Lower[k]; }
    else if k < 52 { assert Alphabet[k] == Upper[k - 26]; }
    else { assert Alphabet[k] == Digits[k - 52]; }
  }

  /** What submitting the form leads to. The request to `user/verify` is built but never sent. */
  datatype Submission = CaptchaMismatch | InvalidEmail | VerifyRequest(endpoint: string, email: string)

  /** `handleSubmit`: the captcha is compared first (exactly, case included), the e-mail second. */
  function HandleSubmit(userCaptcha: string, captcha: string, email: string): (o: Submission)
    ensures o.CaptchaMismatch? <==> userCaptcha != captcha
    ensures o.InvalidEmail? <==> userCaptcha == captcha && !MatchesPattern(email)
    ensures o.VerifyRequest? ==> o == VerifyRequest("user/verify", email)
  {
    if userCaptcha != captcha then CaptchaMismatch
    else if !IsValidEmail(email) then InvalidEmail
    else VerifyRequest("user/verify", email)
  }
}

=== FILE: wrappers.dfy ===
/** SQL NULL / JavaScript `null`-or-`undefined` as an optional value. */
module Wrappers {

  datatype Option<+T> = None | Some(value: T) {

    /** The value, or `default` when absent: SQL `ISNULL(x, default)` and JavaScript `x ?? default`. */
    function GetOr(default: T): T {
      match this
      case Some(v) => v
      case None => default
    }
  }
}
